=== FILE: README.md ===
# Cash-payment controller of a self-service kiosk, in Dafny

`server/types/script.js` drives two serial devices. One is a bill acceptor
(billetero) on an 8-byte line. The other is a coin validator with a change
hopper (monedero) on a 24-byte line. The controller:

- receives a target amount (`requestAmount`);
- asks the coin tubes what they hold (`checkCoinTubes`);
- enables the bills that suit the amount (`determineBillAcceptance`);
- counts stacked bills and inserted coins;
- once the total reaches the target, inhibits the devices, emits
  `paymentCompleted` and pays out the change greedily through the hopper
  (`calculateChangeCommands`, `deliverChange`).

`server/utils/serial/ChangeCalculator.ts` is a TypeScript copy of the
command table and the change calculator.

The model has six modules:

- `Commands` (commands.dfy): both command tables, byte for byte, and their
  framing facts.
- `Text` (text.dfy): the string operations the handlers use on device data.
  These are upper-case hex encoding, `indexOf`, `includes`, `slice`, and
  `toFixed(2)`.
- `Change` (change.dfy): the greedy change split, as functions and as the
  two-loop method.
- `Bill` (bill.dfy): bill decoding, the acceptance tiers and the escrow
  reports.
- `Coin` (coin.dfy): the framing loop of the coin line, coin decoding and
  the tube-status parser.
- `Controller` (controller.dfy): the module variables as a `State` record.
  Each handler is a step function that returns the new state, the writes it
  makes (port, command, and millisecond offset of its `setTimeout`) and the
  events it emits. `Run` chains the handlers over a sequence of inputs.

Money is integer cents throughout. The source works in floating-point
bolivianos. `calculateChangeCommands` rounds its running remainder to two
decimals after every subtraction, so the change split stays on whole cents.
The accumulated total and the change are plain sums and differences of
doubles and are not rounded; "## Left out" names what that changes. Bill
values stay in whole bolivianos, as the source keeps them, and are
multiplied by 100 when added to the total.

Behaviour of the code that the model keeps:

- `requestAmount` does not reset the accumulated total.
- After a completed payment the target stays set.
- `paymentCompleted.totalPaid` is printed after the total has been zeroed,
  so it is always "0.00".
- `evaluatePayment` calls `inhibitDevices` both before and after it hands
  the change to the hopper.

## Model

| member | source | states |
|---|---|---|
| Commands.TablesAgree | server/utils/serial/ChangeCalculator.ts:1-32 | The TypeScript command table has the same bytes as the one in script.js, for every command. |
| Commands.EnableAllIsFullEnable | server/types/script.js:45-46 | `EnableAll` is the same byte string as the five-bill enable command, in both tables. |
| Commands.CambioLayout | server/types/script.js:53-60 | Every dispense command is the frame 02 00 0F 02 k 10 03. Here k is its value in tenths of a boliviano (1..30), and the command goes to the coin line. |
| Commands.CoinLineFraming | server/types/script.js:48-60 | Every coin-line command starts 02 00 and ends 10 03. |
| Commands.BillLineFraming | server/types/script.js:33-46 | Every bill-line command starts with 02 and a non-zero second byte. |
| Commands.BillLengthBytes | server/types/script.js:33-46 | The second byte of a bill command equals its length exactly when the command is not one of the three longest enable byte strings (four names, since `EnableAll` repeats the five-bill enable). For example, `Enable10_20_50` claims 8 bytes but has 10. |
| Text.HexEncodePair | server/types/script.js:355 | In the hex rendering of a chunk, characters 2k and 2k+1 are the two digits of byte k and read back as that byte. |
| Text.HexEncodeInjective | server/types/script.js:257-265 | Two chunks with the same hex text are the same chunk. So comparing the rendered chunk with the previous one compares the bytes. |
| Text.IndexOf | server/types/script.js:358-359 | `indexOf(s, from)` returns the first occurrence at or after `from`, or -1 exactly when there is none. |
| Text.IncludesMeansOccurs | server/types/script.js:418-419 | `includes` holds exactly when the text occurs somewhere. |
| Text.Slice | server/types/script.js:420 | `slice(a, b)` clamps both ends to the length. It is the plain subsequence when both ends are in range, runs to the end of the text when only `b` lies past it, and is empty when `a` does. It is empty whenever `b <= a`. |
| Text.Fixed2RoundTrip | server/types/script.js:439 | A cent amount printed with `toFixed(2)` reads back as the same amount. |
| Change.GreedySplit | server/types/script.js:80-86 | The two loops (every rung in turn, each taken while it fits) compute exactly the greedy plan over the ladder. |
| Change.CalculateChangeCommands | server/types/script.js:76-93 | For a non-negative change it returns only dispense commands, in non-increasing value. Their sum plus a remainder under 0.10 is the change. The undispensable remainder is positive exactly when the change is not a multiple of 0.10. |
| Change.ChangePlanFacts | server/types/script.js:64-93 | The plan's sum never exceeds the change. The remainder is exactly the change mod 0.10. Below 0.10, zero and negative change included, nothing is queued. |
| Change.ChangeCounts | server/types/script.js:64-86 | 3.00 is paid exactly change / 3.00 times, 0.20 at most twice, and every other coin at most once. |
| Change.CalculatorAgrees | server/utils/serial/ChangeCalculator.ts:35-63 | The TypeScript calculator produces the same plan for every change, and each queued command has the same bytes. |
| Bill.EvaluateBill | server/types/script.js:380-398 | The value is non-zero exactly when there are at least 7 bytes, byte 3 is 1..5 and byte 4 is 0x02 or 0x08. It is then the denomination that byte 3 names. |
| Bill.SelectTier | server/types/script.js:300-318 | The accepted bills are the first n denominations, where n counts the cut-offs 5.10/15.10/45.10/95.10/195.10 the amount lies above. The command is the enable for those n bills. |
| Bill.TierMonotone | server/types/script.js:156-173 | A larger amount never accepts fewer bills: the lists are prefixes of one another. |
| Bill.DetermineBillAcceptance | server/types/script.js:151-184 | It writes the hold command at once and the tier's enable command 50 ms later, never a reject. It returns the bills above whose cut-off the amount lies, in both directions. |
| Bill.EscrowFramesDecode | server/types/script.js:282-291 | Each of the five filtered escrow reports would decode as its own bill. |
| Bill.BillWithinOwnTier | server/types/script.js:296-320 | A bill always lies in the tier picked from its own value, so the `includes` test always passes. |
| Bill.TierHoldsOnlyDenominations | server/types/script.js:151-173 | No tier contains a value outside the five denominations. |
| Coin.NextFrame | server/types/script.js:358-362 | The frame starts at the first "06" of the buffer, and no "1003" begins inside it before its own closing "1003". So it runs from the first "06" to the first "1003" after it, and it has the shape "06", anything, "1003". What follows is a shorter suffix of the buffer. |
| Coin.LoopCondition | server/types/script.js:358-361 | The framing loop is entered exactly when some "06" has a "1003" at or after it. |
| Coin.Frames | server/types/script.js:358-372 | Every extracted piece is a frame. What remains holds no further frame and is a suffix of the buffer. Nothing is extracted exactly when the buffer is left unchanged. |
| Coin.ScanFrames | server/types/script.js:358-372 | The `while` loop as written terminates and extracts exactly the frames and rest of `Frames`. |
| Coin.BoundBuffer | server/types/script.js:374-376 | A buffer longer than 100 characters is cut to its last 50. Anything else is kept. |
| Coin.SuffixHasNoFrame | server/types/script.js:369-376 | Cutting a frame-free buffer back to a suffix cannot create a frame. |
| Coin.FramingIgnoresByteBoundaries | server/types/script.js:358-362 | The search is by character: the bytes 10 61 00 31 yield the frame "061003" starting at an odd offset. |
| Coin.EvaluateCoin | server/types/script.js:402-422 | The result is 0 or a coin value. "450045" anywhere means 5.00. Otherwise "440044" anywhere means 2.00. A frame shorter than 7 characters without either is worth nothing. |
| Coin.CoinSchemesAgree | server/types/script.js:403-417 | Codes 40..43 and 50..53 name the same coins. The one-byte codes 44 and 45 are unknown. |
| Coin.CoinFromPair | server/types/script.js:418-421 | Without a two-byte code, the coin is the one named by the byte whose hex pair sits at offsets 6-7. |
| Coin.ParseTubeStatus | server/types/script.js:189-218 | The total is the value of the four calibrated counts. The counts are at least 1, -1, 2 and 5, so the total is at least 5.90. |
| Coin.TubeStatusLocality | server/types/script.js:191-205 | The report depends only on characters 10..17 of the response, the four counters used. |
| Coin.TubeCountersAreBytes5To8 | server/types/script.js:191-211 | On a 24-byte response the counts are bytes 5..8 plus 1, -1, 2 and 5. |
| Coin.TubeCountCanBeNegative | server/types/script.js:209 | An empty 0.20 tube is reported as -1 coins. |
| Controller.DeliverChange | server/types/script.js:455-466 | The k-th queued command goes to the coin line 500 k ms after the first, and nothing else is written. |
| Controller.DispensedDelivery | server/types/script.js:455-466 | Delivering a queue of dispense commands dispenses exactly that queue, in order. |
| Controller.PaymentSends | server/types/script.js:441-450 | The log of a completion is `inhibitDevices` at 0 ms, the change queue with the k-th dispense at 500 k ms, and `inhibitDevices` again at 0 ms. It dispenses exactly the change plan and never rejects. |
| Controller.LaterDispensesFollowInhibit | server/types/script.js:445-450 | In wire order only the first dispense precedes the second `inhibitDevices`: every later dispense is scheduled at least 500 ms after it. |
| Controller.CompletionEvent | server/types/script.js:434-440 | `totalPaid` is "0.00". The change is present exactly when positive, and then reads back as the change. |
| Controller.EvaluatePayment | server/types/script.js:425-452 | It completes exactly when total >= target. Then the total is zeroed, the events are exactly one completion for the change, and the log is exactly `PaymentSends` of the change, so the change plan is dispensed. Otherwise nothing happens. |
| Controller.PaymentDispensesChange | server/types/script.js:442-446 | The value dispensed is the change less the part under 0.10, never more than the change, and each dispense goes to the coin line at its 500 ms slot. |
| Controller.RequestAmount | server/types/script.js:104-114 | A positive amount becomes the target, with the total untouched. It writes exactly TubeStatus to the coin line, then BillEnables and DesinhibitBilletero to the bill line, and registers one listener. A non-positive or NaN amount changes nothing. |
| Controller.TubeGateAlwaysOpen | server/types/script.js:141-146 | The total parsed from any 24-byte reply clears the 4.90 gate. |
| Controller.TubeStatusReply | server/types/script.js:121-147 | The listener emits the tube total and the bill tier of the target and changes no state. Its log is the hold command, the tier enable (scheduled 50 ms later), then the two device enables. |
| Controller.TierEnableFollowsDevices | server/types/script.js:176-181 | In wire order the hold and both device enables go out at once, and the tier enable follows 50 ms later. |
| Controller.TubeStatusReplies | server/types/script.js:117-148 | Every pending listener answers the same chunk: event k is the reply's event, and writes 4k..4k+3 are the reply's four writes. |
| Controller.Settle | server/types/script.js:425-452 | `evaluatePayment` right after a coin or a bill has brought the total to `paid`: it completes exactly when paid >= target. Then the total is zeroed, the events are exactly one completion for paid - target, and the log is exactly `PaymentSends` of that change. Otherwise the total is `paid` and nothing is written or emitted. |
| Controller.CoinStep | server/types/script.js:363-368 | A frame changes only the total. A frame worth nothing changes nothing. A coin completes the payment exactly when it brings the total to the target. Then the total is zeroed, the log is exactly `PaymentSends` of the change, and the events are exactly one completion for that change. Otherwise the total grows by the coin's value and nothing is written. |
| Controller.ApplyCoins | server/types/script.js:361-372 | Over the extracted frames only the total changes. While nothing completes, it grows by the frames' value. If the frames' value leaves the total below the target nothing completes. If the total starts below the target and the frames' value reaches it, a completion is emitted. Without a completion nothing is written. At most one completion per frame, and no reject is ever written. |
| Controller.FirstCompletion | server/types/script.js:361-368 | Over the extracted frames, the frame that first brings the total from below the target up to it decides the payment. The first event is the completion for what that frame's total exceeds the target by, and the log starts with `PaymentSends` of that change. |
| Controller.FrameChunk | server/types/script.js:355-376 | The buffer becomes the framing rest of buffer + chunk, cut back past 100 characters. Only the total changes besides, and while nothing completes it grows by the framed coins' value. Frames that leave the total below the target complete nothing. Frames that carry a total from below the target up to it complete the payment. Without a completion nothing is written. |
| Controller.ChunkCompletes | server/types/script.js:355-376 | For the frames of buffer + chunk: the first one that brings the total up to the target gives the first event, the completion for its change, and the log starts with `PaymentSends` of that change. |
| Controller.CoinDataCompletes | server/types/script.js:354-377 | The same for the whole coin handler: the listeners answer after the framing, so the first event is that completion and the log still starts with its `PaymentSends`. |
| Controller.OnCoinData | server/types/script.js:354-377 | After a chunk the buffer is the framing rest of buffer + chunk, cut back to 50 characters past 100, so it holds no frame. Without a completion the total grows by the value of the coins framed in buffer + chunk. Coins short of the target emit only the pending listeners' events. Without a completion the only writes are the listeners' 4n. Coins that reach it emit a completion first. Every pending tube listener has answered: the last n events are the tube reply's event and the last 4n writes are n copies of its four writes. |
| Controller.OnBillChunk | server/types/script.js:256-349 | A duplicate within 200 ms changes nothing. Otherwise a bill is stacked exactly under `Stacks`: outside the 1500 ms settle window, not an escrow report, starting 02, decoding to a bill. A stacked bill is accepted first and its value added, and the total is zeroed when it reaches the target. The handler then completes exactly when the total reaches the target: its log is AcceptBill followed by `PaymentSends` of the change, and its events are exactly one completion for that change. Below the target the log is AcceptBill alone. Anything else writes nothing and leaves the total alone. It never rejects. |
| Controller.StackBill | server/types/script.js:320-327 | A stacked bill writes AcceptBill first and records the stacking time. Its value in cents is added, and the payment completes exactly when that reaches the target. On completion the total is zeroed, the log is AcceptBill followed by `PaymentSends` of the change, and the events are exactly one completion for that change. Without completion nothing is emitted. Otherwise the log is AcceptBill alone and the total keeps the bill. |
| Controller.EscrowNeverCounted | server/types/script.js:282-291 | An escrow report neither writes nor changes the total. |
| Controller.DuplicateCountedOnce | server/types/script.js:261-266 | The same chunk twice within 200 ms is stacked at most once, and the second copy is dropped without effect. |
| Controller.StackedBillsSpaced | server/types/script.js:269-271 | Over any run of inputs, stacked bills are at least 1500 ms apart, and the first is at least 1500 ms after the previous one. |
| Controller.RunNeverRejects | server/types/script.js:320-331 | No run of inputs ever writes RejectBill: the reject branch is dead. |
| Controller.ExactPayment | server/types/script.js:425-440 | A 5.00 session paid with one 5.00 coin emits one completion with no change and ends with total zero. |
| Controller.FirstCoinWaits | server/types/script.js:364-368 | A 2.00 coin in a 5.00 session is only added to the total. |
| Controller.OverPayment | server/types/script.js:425-450 | A 5.00 session paid with 2.00 then 5.00 emits one completion with change "2.00" and dispenses one 2.00 coin. |

## Left out

- Serial ports, the `ByteLengthParser`s, `sendCommand`'s guard against a missing or non-array command (every call passes a table entry) and its write-error callback. Chunks arrive as byte sequences of the parser's length (8 on the bill line, 24 on the coin line), and writes are returned as a log.
- The polling timers that `enableBillAcceptor` and `enableCoinAcceptor` start (Status every 250 ms, PullMonedero every 500 ms). They only write polls and are not part of any decision. `enableDevices` is modelled as its two enable writes.
- The event emitter. Events are returned as records, and listeners in other files are not part of this model.
- Console logging. The "cannot give exact change" log is modelled as the plan's positive `remaining`.
- Floating point. Amounts are integer cents, and the rounding of sums of doubles is not modelled.
- Controller.EvaluatePayment: completes on the exact cent comparison. The source adds doubles, so it can differ in two ways. 0.50 + 0.20 + 0.10 sums to 0.7999999999999999, so a 0.80 session paid with exactly those coins never completes in the source. 2.00 + 1.00 + 0.50 + 0.20 + 0.10 against 3.80 leaves a change of about 4.4e-16, which the source emits as change "0.00" where the model emits none.
- JavaScript coercion. A NaN amount is `None`. `parseInt` on a non-hex pair cannot arise because the text is produced by hex encoding.
- `Date.now()`. The clock reading is a parameter of the bill handler.
- `billeteroBuffer` and the global `acceptedBills`. Both are overwritten before they are read on every path, so they carry no state.
- The spaced hex rendering of a bill chunk. The model compares and slices the bytes, and Text.HexEncodeInjective shows this is the same comparison. The `responseSegments.length >= 7` test always holds for an 8-byte chunk.
- Coin.ParseTubeStatus: requires at least 12 hex characters. The source throws on shorter input, and its only caller passes 48.
- The `checkCoinTubes` log of counts per tube, sorted by denomination. It only prints.
- The HTTP routes, printing, the database and the type declarations of the rest of the repository.

=== FILE: bill.dfy ===
/** The bill acceptor side: decoding of a stacked-bill report, the acceptance
    tiers, and the escrow reports the handler filters out. Bill values are in
    whole bolivianos, as the source keeps them; amounts compared against the
    tier cut-offs are in cents. */
module Bill {
  import opened Commands

  /** The bill values, in the order of the codes 1..5 of the report. */
  const BillDenominations: seq<nat> := [10, 20, 50, 100, 200]

  /** The upper ends, in cents, of the first five tiers (5.10, 15.10, 45.10,
      95.10, 195.10): an amount above `TierBounds[j]` enables bill j. */
  const TierBounds: seq<nat> := [510, 1510, 4510, 9510, 19510]

  /** `evaluateBill`: fewer than seven bytes give 0; otherwise byte 3 picks
      the value among 1..5 and byte 4 must be 0x02 or 0x08. */
  function EvaluateBill(bytes: seq<Byte>): (v: nat)
    ensures v != 0 <==> |bytes| >= 7 && 1 <= bytes[3] <= 5 && (bytes[4] == 0x02 || bytes[4] == 0x08)
    ensures v != 0 ==> v == BillDenominations[bytes[3] - 1]
    ensures v == 0 || v in BillDenominations
  {
    if |bytes| < 7 then 0
    else
      var fourth := bytes[3];
      var known := bytes[4] == 0x02 || bytes[4] == 0x08;
      if fourth == 0x01 then (if known then 10 else 0)
      else if fourth == 0x02 then (if known then 20 else 0)
      else if fourth == 0x03 then (if known then 50 else 0)
      else if fourth == 0x04 then (if known then 100 else 0)
      else if fourth == 0x05 then (if known then 200 else 0)
      else 0
  }

  /** The bills to accept and the command that enables exactly them. */
  datatype Acceptance = Acceptance(bills: seq<nat>, command: CommandName)

  /** The tier ladder shared by `determineBillAcceptance` and the bill
      handler: the accepted bills are the first n denominations, where n
      counts the cut-offs the amount lies above, and the command is the
      matching rung of the enable ladder (InhibitBills for none). */
  function SelectTier(cents: int): (a: Acceptance)
    ensures |a.bills| <= |BillDenominations| && a.bills == BillDenominations[..|a.bills|]
    ensures forall j :: 0 <= j < |TierBounds| ==> (j < |a.bills| <==> cents > TierBounds[j])
    ensures a.command == EnableLadder[|a.bills|]
  {
    if cents <= 510 then Acceptance([], InhibitBills)
    else if cents <= 1510 then Acceptance([10], Enable10)
    else if cents <= 4510 then Acceptance([10, 20], Enable10_20)
    else if cents <= 9510 then Acceptance([10, 20, 50], Enable10_20_50)
    else if cents <= 19510 then Acceptance([10, 20, 50, 100], Enable10_20_50_100)
    else Acceptance([10, 20, 50, 100, 200], Enable10_20_50_100_200)
  }

  /** A larger amount never accepts fewer bills: the lists are prefixes of
      one another. */
  lemma TierMonotone(a: int, b: int)
    requires a <= b
    ensures |SelectTier(a).bills| <= |SelectTier(b).bills|
    ensures SelectTier(a).bills == SelectTier(b).bills[..|SelectTier(a).bills|]
  {
  }

  /** What `determineBillAcceptance` returns and writes. */
  datatype BillSetup = BillSetup(bills: seq<nat>, sent: seq<Send>)

  /** The pause between the hold command and the enable command. */
  const HoldDelayMs: nat := 50

  /** `determineBillAcceptance(amount)`: put the acceptor on hold at once,
      then, 50 ms later, enable the tier of the amount; return the tier's
      bills. */
  function DetermineBillAcceptance(cents: int): (r: BillSetup)
    ensures |r.bills| <= |BillDenominations| && r.bills == BillDenominations[..|r.bills|]
    ensures |r.sent| == 2
    ensures r.sent[0] == Send(BillPort, BilleteroEnEspera, 0)
    ensures r.sent[1].port == BillPort && r.sent[1].delay == HoldDelayMs
    ensures r.sent[1].command == EnableLadder[|r.bills|]
    ensures forall k :: 0 <= k < |r.sent| ==> r.sent[k].command != RejectBill
    ensures forall j :: 0 <= j < |TierBounds| ==> (j < |r.bills| <==> cents > TierBounds[j])
  {
    var tier := SelectTier(cents);
    BillSetup(tier.bills, [Send(BillPort, BilleteroEnEspera, 0), Send(BillPort, tier.command, HoldDelayMs)])
  }

  /** The escrow reports `02 07 CC 0k 02 00 xx` of the five bills, which the
      handler drops without evaluating. */
  const EscrowFrames: seq<seq<Byte>> := [
    [0x02, 0x07, 0xCC, 0x01, 0x02, 0x00, 0x28],
    [0x02, 0x07, 0xCC, 0x02, 0x02, 0x00, 0x27],
    [0x02, 0x07, 0xCC, 0x03, 0x02, 0x00, 0x26],
    [0x02, 0x07, 0xCC, 0x04, 0x02, 0x00, 0x25],
    [0x02, 0x07, 0xCC, 0x05, 0x02, 0x00, 0x24]
  ]

  /** Every escrow report would otherwise decode as its own bill, so the
      filter is what keeps a bill in escrow from being counted. */
  lemma EscrowFramesDecode()
    ensures forall k :: 0 <= k < |EscrowFrames| ==> EvaluateBill(EscrowFrames[k]) == BillDenominations[k]
  {
  }

  /** The handler picks the tier from the bill's own value; every bill lies
      in that tier, so its reject branch cannot be taken. */
  lemma BillWithinOwnTier(v: nat)
    requires v in BillDenominations
    ensures v in SelectTier(100 * v).bills
  {
  }

  /** No value outside the denominations is ever in a tier. */
  lemma TierHoldsOnlyDenominations(cents: int, v: nat)
    requires v in SelectTier(cents).bills
    ensures v in BillDenominations
  {
    var t := SelectTier(cents).bills;
    var k :| 0 <= k < |t| && t[k] == v;
    assert BillDenominations[k] == v;
  }
}

=== FILE: change.dfy ===
/** Greedy change-making: `calculateChangeCommands` splits a change amount into
    hopper dispense commands, largest denomination first. Amounts are integer
    cents; the source's re-rounding to two decimals after every subtraction is
    what keeps its floating-point arithmetic on whole cents, so subtraction of
    integers is the same computation. */
module Change {
  import opened Commands

  /** One entry of `CAMBIO_VALORES`: a value in cents and the command paying it out. */
  datatype Rung = Rung(value: nat, command: CommandName)

  /** The outcome of a greedy split: the queued dispense commands, in order,
      and the amount still owed once no denomination fits. */
  datatype Plan = Plan(commands: seq<CommandName>, remaining: int)

  /** `CAMBIO_VALORES` of server/types/script.js, largest value first. */
  const ScriptLadder: seq<Rung> := [
    Rung(300, Cambio3Bs), Rung(250, Cambio2_50Bs), Rung(200, Cambio2Bs),
    Rung(150, Cambio1_50Bs), Rung(100, Cambio1Bs), Rung(50, Cambio50Ctvs),
    Rung(20, Cambio20Ctvs), Rung(10, Cambio10Ctvs)]

  /** `CAMBIO_VALORES` of server/utils/serial/ChangeCalculator.ts. */
  const CalculatorLadder: seq<Rung> := [
    Rung(300, Cambio3Bs), Rung(250, Cambio2_50Bs), Rung(200, Cambio2Bs),
    Rung(150, Cambio1_50Bs), Rung(100, Cambio1Bs), Rung(50, Cambio50Ctvs),
    Rung(20, Cambio20Ctvs), Rung(10, Cambio10Ctvs)]

  /** Every rung has a positive value (otherwise the inner loop would never end). */
  predicate PositiveValues(ladder: seq<Rung>) {
    forall i :: 0 <= i < |ladder| ==> ladder[i].value > 0
  }

  /** A ladder the greedy split is meant for: positive values, strictly
      descending, each rung's command paying out exactly the rung's value. */
  predicate WellFormed(ladder: seq<Rung>) {
    && PositiveValues(ladder)
    && (forall i :: 0 <= i < |ladder| ==>
          IsCambio(ladder[i].command) && CambioValue(ladder[i].command) == ladder[i].value)
    && (forall i, j :: 0 <= i < j < |ladder| ==> ladder[i].value > ladder[j].value)
  }

  /** Total value, in cents, that a command sequence dispenses. */
  function Sum(cmds: seq<CommandName>): nat {
    if cmds == [] then 0 else CambioValue(cmds[0]) + Sum(cmds[1..])
  }

  /** Number of occurrences of command c. */
  function Count(cmds: seq<CommandName>, c: CommandName): nat {
    if cmds == [] then 0 else (if cmds[0] == c then 1 else 0) + Count(cmds[1..], c)
  }

  /** Commands sorted by non-increasing dispensed value. */
  predicate NonIncreasing(cmds: seq<CommandName>) {
    forall i, j :: 0 <= i < j < |cmds| ==> CambioValue(cmds[i]) >= CambioValue(cmds[j])
  }

  /** The inner loop `while (remainingChange >= valor)` for one rung. */
  function Drain(r: Rung, rem: int): Plan
    requires r.value > 0
    decreases rem
  {
    if rem >= r.value then
      var p := Drain(r, rem - r.value);
      Plan([r.command] + p.commands, p.remaining)
    else
      Plan([], rem)
  }

  /** The outer loop over the ladder. */
  function Greedy(ladder: seq<Rung>, rem: int): Plan
    requires PositiveValues(ladder)
    decreases |ladder|
  {
    if ladder == [] then Plan([], rem)
    else
      var d := Drain(ladder[0], rem);
      var p := Greedy(ladder[1..], d.remaining);
      Plan(d.commands + p.commands, p.remaining)
  }

  /** `calculateChangeCommands(change)` of server/types/script.js, for a change
      of c cents. */
  function ChangePlan(c: int): Plan {
    Greedy(ScriptLadder, c)
  }

  /** `calculateChangeCommands(change)` of ChangeCalculator.ts, for c cents. */
  function CalculatorChangePlan(c: int): Plan {
    Greedy(CalculatorLadder, c)
  }

  lemma PositiveSuffix(ladder: seq<Rung>, i: nat)
    requires PositiveValues(ladder) && i <= |ladder|
    ensures PositiveValues(ladder[i..])
  {
    forall k | 0 <= k < |ladder[i..]|
      ensures ladder[i..][k].value > 0
    {
      assert ladder[i..][k] == ladder[i + k];
    }
  }

  /** The plan once the rungs before i are done: `done` already queued, `rem`
      still owed. */
  function Finish(ladder: seq<Rung>, i: nat, done: seq<CommandName>, rem: int): Plan
    requires PositiveValues(ladder) && i <= |ladder|
  {
    PositiveSuffix(ladder, i);
    var p := Greedy(ladder[i..], rem);
    Plan(done + p.commands, p.remaining)
  }

  /** The plan while rung i is being drained. */
  function FinishRung(ladder: seq<Rung>, i: nat, done: seq<CommandName>, rem: int): Plan
    requires PositiveValues(ladder) && i < |ladder|
  {
    var d := Drain(ladder[i], rem);
    Finish(ladder, i + 1, done + d.commands, d.remaining)
  }

  lemma EnterRung(ladder: seq<Rung>, i: nat, done: seq<CommandName>, rem: int)
    requires PositiveValues(ladder) && i < |ladder|
    ensures Finish(ladder, i, done, rem) == FinishRung(ladder, i, done, rem)
  {
    PositiveSuffix(ladder, i);
    PositiveSuffix(ladder, i + 1);
    assert ladder[i..][0] == ladder[i] && ladder[i..][1..] == ladder[i + 1..];
    var d := Drain(ladder[i], rem);
    var p := Greedy(ladder[i + 1..], d.remaining);
    assert Greedy(ladder[i..], rem) == Plan(d.commands + p.commands, p.remaining);
    assert done + (d.commands + p.commands) == (done + d.commands) + p.commands;
  }

  lemma TakeRung(ladder: seq<Rung>, i: nat, done: seq<CommandName>, rem: int)
    requires PositiveValues(ladder) && i < |ladder| && rem >= ladder[i].value
    ensures FinishRung(ladder, i, done, rem)
      == FinishRung(ladder, i, done + [ladder[i].command], rem - ladder[i].value)
  {
    var r := ladder[i];
    assert done + Drain(r, rem).commands
      == (done + [r.command]) + Drain(r, rem - r.value).commands;
  }

  lemma LeaveRung(ladder: seq<Rung>, i: nat, done: seq<CommandName>, rem: int)
    requires PositiveValues(ladder) && i < |ladder| && rem < ladder[i].value
    ensures FinishRung(ladder, i, done, rem) == Finish(ladder, i + 1, done, rem)
  {
    assert done + [] == done;
  }

  lemma FinishLast(ladder: seq<Rung>, done: seq<CommandName>, rem: int)
    requires PositiveValues(ladder)
    ensures Finish(ladder, |ladder|, done, rem) == Plan(done, rem)
  {
    assert ladder[|ladder|..] == [];
    assert done + [] == done;
  }

  /** The two loops of `calculateChangeCommands` over a ladder: the outer
      `for` walks the rungs, the inner `while` takes a rung as long as it fits. */
  method GreedySplit(ladder: seq<Rung>, change: int) returns (commands: seq<CommandName>, remaining: int)
    requires PositiveValues(ladder)
    ensures Plan(commands, remaining) == Greedy(ladder, change)
  {
    commands := [];
    remaining := change;
    var i := 0;
    assert ladder[0..] == ladder;
    while i < |ladder|
      invariant 0 <= i <= |ladder|
      invariant Finish(ladder, i, commands, remaining) == Greedy(ladder, change)
    {
      var rung := ladder[i];
      EnterRung(ladder, i, commands, remaining);
      while remaining >= rung.value
        invariant FinishRung(ladder, i, commands, remaining) == Greedy(ladder, change)
        decreases remaining
      {
        TakeRung(ladder, i, commands, remaining);
        commands := commands + [rung.command];
        remaining := remaining - rung.value;
      }
      LeaveRung(ladder, i, commands, remaining);
      i := i + 1;
    }
    FinishLast(ladder, commands, remaining);
  }

  /** `calculateChangeCommands` of server/types/script.js for a change of
      `change` cents; `remaining` is what the source logs as undispensable
      when it is positive. */
  method CalculateChangeCommands(change: int) returns (commands: seq<CommandName>, remaining: int)
    ensures Plan(commands, remaining) == ChangePlan(change)
    ensures change >= 0 ==> Sum(commands) + remaining == change && 0 <= remaining < 10
    ensures remaining > 0 <==> change >= 0 && change % 10 != 0
    ensures forall k :: 0 <= k < |commands| ==> IsCambio(commands[k])
    ensures NonIncreasing(commands)
  {
    ScriptLadderWellFormed();
    commands, remaining := GreedySplit(ScriptLadder, change);
    ChangePlanFacts(change);
  }

  lemma {:induction false} SumAppend(a: seq<CommandName>, b: seq<CommandName>)
    ensures Sum(a + b) == Sum(a) + Sum(b)
    decreases |a|
  {
    if a == [] {
      assert a + b == b;
    } else {
      assert (a + b)[0] == a[0];
      assert (a + b)[1..] == a[1..] + b;
      SumAppend(a[1..], b);
    }
  }

  lemma {:induction false} CountAppend(a: seq<CommandName>, b: seq<CommandName>, c: CommandName)
    ensures Count(a + b, c) == Count(a, c) + Count(b, c)
    decreases |a|
  {
    if a == [] {
      assert a + b == b;
    } else {
      assert (a + b)[0] == a[0];
      assert (a + b)[1..] == a[1..] + b;
      CountAppend(a[1..], b, c);
    }
  }

  /** Occurrences of c: all of them when every element is c, none when none is. */
  lemma {:induction false} CountUniform(cmds: seq<CommandName>, c: CommandName)
    ensures (forall k :: 0 <= k < |cmds| ==> cmds[k] == c) ==> Count(cmds, c) == |cmds|
    ensures (forall k :: 0 <= k < |cmds| ==> cmds[k] != c) ==> Count(cmds, c) == 0
    decreases |cmds|
  {
    if cmds != [] {
      CountUniform(cmds[1..], c);
    }
  }

  /** Every dispensed value is a multiple of 10 cents, so every sum is. */
  lemma {:induction false} SumIsTens(cmds: seq<CommandName>)
    ensures Sum(cmds) % 10 == 0
    decreases |cmds|
  {
    if cmds != [] {
      SumIsTens(cmds[1..]);
    }
  }

  /** Draining one rung dispenses exactly what it takes from rem. */
  lemma {:induction false} DrainSum(r: Rung, rem: int)
    requires r.value > 0 && CambioValue(r.command) == r.value
    ensures Sum(Drain(r, rem).commands) + Drain(r, rem).remaining == rem
    decreases rem
  {
    if rem >= r.value {
      DrainSum(r, rem - r.value);
      var p := Drain(r, rem - r.value);
      var cmds := [r.command] + p.commands;
      assert cmds[0] == r.command && cmds[1..] == p.commands;
    }
  }

  /** Draining one rung queues nothing but the rung's command. */
  lemma {:induction false} DrainRepeats(r: Rung, rem: int)
    requires r.value > 0
    ensures forall k :: 0 <= k < |Drain(r, rem).commands| ==> Drain(r, rem).commands[k] == r.command
    decreases rem
  {
    if rem >= r.value {
      DrainRepeats(r, rem - r.value);
      var p := Drain(r, rem - r.value);
      var cmds := [r.command] + p.commands;
      assert forall k :: 1 <= k < |cmds| ==> cmds[k] == p.commands[k - 1];
    }
  }

  /** Draining one rung takes its value as often as it queues the command. */
  lemma {:induction false} DrainCount(r: Rung, rem: int)
    requires r.value > 0
    ensures |Drain(r, rem).commands| * r.value + Drain(r, rem).remaining == rem
    decreases rem
  {
    if rem >= r.value {
      DrainCount(r, rem - r.value);
      var p := Drain(r, rem - r.value);
      assert |[r.command] + p.commands| == |p.commands| + 1;
      assert (|p.commands| + 1) * r.value == |p.commands| * r.value + r.value;
    }
  }

  /** Draining a non-negative amount leaves less than the rung's value;
      nothing is taken from an amount below it. */
  lemma {:induction false} DrainLeaves(r: Rung, rem: int)
    requires r.value > 0
    ensures rem >= 0 ==> 0 <= Drain(r, rem).remaining < r.value
    ensures rem < r.value ==> Drain(r, rem) == Plan([], rem)
    decreases rem
  {
    if rem >= r.value {
      DrainLeaves(r, rem - r.value);
    }
  }

  lemma TailWellFormed(ladder: seq<Rung>)
    requires WellFormed(ladder) && |ladder| > 0
    ensures WellFormed(ladder[1..])
  {
    var t := ladder[1..];
    forall i | 0 <= i < |t|
      ensures t[i] == ladder[i + 1]
    {
    }
  }

  /** The commands and the remainder of a greedy split add up to the amount. */
  lemma {:induction false} GreedySum(ladder: seq<Rung>, rem: int)
    requires WellFormed(ladder)
    ensures Sum(Greedy(ladder, rem).commands) + Greedy(ladder, rem).remaining == rem
    decreases |ladder|
  {
    if ladder != [] {
      var d := Drain(ladder[0], rem);
      TailWellFormed(ladder);
      DrainSum(ladder[0], rem);
      GreedySum(ladder[1..], d.remaining);
      SumAppend(d.commands, Greedy(ladder[1..], d.remaining).commands);
    }
  }

  /** Of a non-negative amount the split leaves less than the smallest rung;
      an amount below the smallest rung is left untouched. */
  lemma {:induction false} GreedyRemainder(ladder: seq<Rung>, rem: int)
    requires WellFormed(ladder) && |ladder| > 0
    ensures rem >= 0 ==> 0 <= Greedy(ladder, rem).remaining < ladder[|ladder| - 1].value
    ensures rem < ladder[|ladder| - 1].value ==> Greedy(ladder, rem) == Plan([], rem)
    decreases |ladder|
  {
    var d := Drain(ladder[0], rem);
    var tail := ladder[1..];
    DrainLeaves(ladder[0], rem);
    if |tail| > 0 {
      TailWellFormed(ladder);
      GreedyRemainder(tail, d.remaining);
      assert tail[|tail| - 1] == ladder[|ladder| - 1];
      if rem < ladder[|ladder| - 1].value {
        assert rem < ladder[0].value;
        assert d == Plan([], rem);
      }
    }
  }

  /** Every command of a split is a dispense command of value at most the
      first rung's. */
  lemma {:induction false} GreedyValues(ladder: seq<Rung>, rem: int)
    requires WellFormed(ladder)
    ensures forall k :: 0 <= k < |Greedy(ladder, rem).commands| ==>
      |ladder| > 0 && IsCambio(Greedy(ladder, rem).commands[k])
      && CambioValue(Greedy(ladder, rem).commands[k]) <= ladder[0].value
    decreases |ladder|
  {
    if ladder == [] {
      assert Greedy(ladder, rem).commands == [];
    } else {
      var d := Drain(ladder[0], rem);
      var tail := ladder[1..];
      TailWellFormed(ladder);
      DrainRepeats(ladder[0], rem);
      var p := Greedy(tail, d.remaining);
      GreedyValues(tail, d.remaining);
      var cmds := d.commands + p.commands;
      assert Greedy(ladder, rem).commands == cmds;
      forall k | 0 <= k < |cmds|
        ensures IsCambio(cmds[k]) && CambioValue(cmds[k]) <= ladder[0].value
      {
        if k < |d.commands| {
          assert cmds[k] == ladder[0].command;
        } else {
          assert cmds[k] == p.commands[k - |d.commands|];
          assert tail[0].value < ladder[0].value;
        }
      }
    }
  }

  /** The commands of a split come in non-increasing value. */
  lemma {:induction false} GreedySorted(ladder: seq<Rung>, rem: int)
    requires WellFormed(ladder)
    ensures NonIncreasing(Greedy(ladder, rem).commands)
    decreases |ladder|
  {
    if ladder != [] {
      var d := Drain(ladder[0], rem);
      var tail := ladder[1..];
      TailWellFormed(ladder);
      DrainRepeats(ladder[0], rem);
      var p := Greedy(tail, d.remaining);
      GreedySorted(tail, d.remaining);
      GreedyValues(tail, d.remaining);
      assert Greedy(ladder, rem).commands == d.commands + p.commands;
      forall k | 0 <= k < |p.commands|
        ensures CambioValue(p.commands[k]) <= ladder[0].value
      {
        assert CambioValue(p.commands[k]) <= tail[0].value;
      }
      CountUniformSorted(d.commands, ladder[0].command);
      SortedAppend(d.commands, p.commands, ladder[0].value);
    }
  }

  /** Copies of one command are sorted. */
  lemma CountUniformSorted(cmds: seq<CommandName>, c: CommandName)
    requires forall k :: 0 <= k < |cmds| ==> cmds[k] == c
    ensures NonIncreasing(cmds)
  {
  }

  /** Two sorted runs, the first at or above m and the second at or below
      it, make a sorted run. */
  lemma SortedAppend(a: seq<CommandName>, b: seq<CommandName>, m: int)
    requires NonIncreasing(a) && NonIncreasing(b)
    requires forall k :: 0 <= k < |a| ==> CambioValue(a[k]) >= m
    requires forall k :: 0 <= k < |b| ==> CambioValue(b[k]) <= m
    ensures NonIncreasing(a + b)
  {
    var s := a + b;
    forall i, j | 0 <= i < j < |s|
      ensures CambioValue(s[i]) >= CambioValue(s[j])
    {
      if j < |a| {
        assert s[i] == a[i] && s[j] == a[j];
      } else if i < |a| {
        assert s[i] == a[i] && s[j] == b[j - |a|];
      } else {
        assert s[i] == b[i - |a|] && s[j] == b[j - |a|];
      }
    }
  }

  /** The commands a well-formed tail contributes never repeat the first rung. */
  lemma TailAvoidsFirst(ladder: seq<Rung>, rem: int)
    requires WellFormed(ladder) && |ladder| > 0
    ensures forall k :: 0 <= k < |Greedy(ladder[1..], rem).commands| ==>
      Greedy(ladder[1..], rem).commands[k] != ladder[0].command
  {
    var tail := ladder[1..];
    TailWellFormed(ladder);
    GreedyValues(tail, rem);
    var p := Greedy(tail, rem);
    forall k | 0 <= k < |p.commands|
      ensures p.commands[k] != ladder[0].command
    {
      assert CambioValue(p.commands[k]) <= tail[0].value < ladder[0].value;
    }
  }

  /** The first rung is used as often as its value fits into rem: n times
      with n * value <= rem < (n + 1) * value. */
  lemma {:induction false} FirstRungCount(ladder: seq<Rung>, rem: int)
    requires WellFormed(ladder) && |ladder| > 0 && rem >= 0
    ensures var n := Count(Greedy(ladder, rem).commands, ladder[0].command);
      n * ladder[0].value <= rem < n * ladder[0].value + ladder[0].value
  {
    var c := ladder[0].command;
    var d := Drain(ladder[0], rem);
    var tail := ladder[1..];
    TailWellFormed(ladder);
    var p := Greedy(tail, d.remaining);
    DrainCount(ladder[0], rem);
    DrainRepeats(ladder[0], rem);
    DrainLeaves(ladder[0], rem);
    TailAvoidsFirst(ladder, d.remaining);
    CountAppend(d.commands, p.commands, c);
    CountUniform(d.commands, c);
    CountUniform(p.commands, c);
    assert Count(Greedy(ladder, rem).commands, c) == |d.commands|;
  }

  /** Rung j > 0 is used so few times that together they stay below the
      value of rung j - 1. */
  lemma {:induction false} LaterRungCount(ladder: seq<Rung>, j: nat, rem: int)
    requires WellFormed(ladder) && 1 <= j < |ladder| && rem >= 0
    ensures Count(Greedy(ladder, rem).commands, ladder[j].command) * ladder[j].value
      < ladder[j - 1].value
    decreases j
  {
    var tail := ladder[1..];
    var left := Drain(ladder[0], rem).remaining;
    TailWellFormed(ladder);
    DrainLeaves(ladder[0], rem);
    assert ladder[0].value > ladder[j].value;
    SkipFirstRung(ladder, rem, ladder[j].command);
    assert tail[j - 1] == ladder[j];
    if j == 1 {
      FirstRungCount(tail, left);
    } else {
      assert tail[j - 2] == ladder[j - 1];
      LaterRungCount(tail, j - 1, left);
    }
  }

  /** A command other than the first rung's is counted in the rest of the split. */
  lemma SkipFirstRung(ladder: seq<Rung>, rem: int, c: CommandName)
    requires WellFormed(ladder) && |ladder| > 0 && ladder[0].command != c
    ensures PositiveValues(ladder[1..])
    ensures Count(Greedy(ladder, rem).commands, c)
      == Count(Greedy(ladder[1..], Drain(ladder[0], rem).remaining).commands, c)
  {
    var d := Drain(ladder[0], rem);
    TailWellFormed(ladder);
    var p := Greedy(ladder[1..], d.remaining);
    DrainRepeats(ladder[0], rem);
    assert Greedy(ladder, rem).commands == d.commands + p.commands;
    CountAppend(d.commands, p.commands, c);
    CountUniform(d.commands, c);
  }

  lemma TensRemainder(c: int, sum: int, r: int)
    requires sum % 10 == 0 && sum + r == c && 0 <= r < 10
    ensures r == c % 10
  {
    var m := sum / 10;
    assert c == 10 * m + r;
  }

  /** An amount below the first rung skips it. */
  lemma GreedySkip(ladder: seq<Rung>, rem: int)
    requires PositiveValues(ladder) && |ladder| > 0 && rem < ladder[0].value
    ensures PositiveValues(ladder[1..])
    ensures Greedy(ladder, rem) == Greedy(ladder[1..], rem)
  {
    PositiveSuffix(ladder, 1);
    assert Drain(ladder[0], rem) == Plan([], rem);
    assert [] + Greedy(ladder[1..], rem).commands == Greedy(ladder[1..], rem).commands;
  }

  /** An amount equal to the first rung takes it once and nothing more. */
  lemma GreedyExact(ladder: seq<Rung>)
    requires PositiveValues(ladder) && |ladder| > 0
    ensures Greedy(ladder, ladder[0].value) == Plan([ladder[0].command], 0)
  {
    var r := ladder[0];
    assert Drain(r, 0) == Plan([], 0);
    assert Drain(r, r.value) == Plan([r.command], 0);
    PositiveSuffix(ladder, 1);
    ZeroOwesNothing(ladder[1..]);
    assert [r.command] + [] == [r.command];
  }

  /** Nothing owed, nothing dispensed. */
  lemma {:induction false} ZeroOwesNothing(ladder: seq<Rung>)
    requires PositiveValues(ladder)
    ensures Greedy(ladder, 0) == Plan([], 0)
    decreases |ladder|
  {
    if ladder != [] {
      PositiveSuffix(ladder, 1);
      ZeroOwesNothing(ladder[1..]);
      assert Drain(ladder[0], 0) == Plan([], 0);
    }
  }

  /** A change of 2.00 is paid with one 2.00 dispense. */
  lemma ChangeForTwo()
    ensures ChangePlan(200) == Plan([Cambio2Bs], 0)
  {
    var l := ScriptLadder;
    GreedySkip(l, 200);
    GreedySkip(l[1..], 200);
    assert l[1..][1..] == l[2..];
    GreedyExact(l[2..]);
  }

  lemma ScriptLadderWellFormed()
    ensures WellFormed(ScriptLadder)
  {
    ScriptLadderPays();
    ScriptLadderDescends();
  }

  /** Every rung of `CAMBIO_VALORES` is a dispense command paying its value. */
  lemma ScriptLadderPays()
    ensures PositiveValues(ScriptLadder)
    ensures forall i :: 0 <= i < |ScriptLadder| ==>
      IsCambio(ScriptLadder[i].command) && CambioValue(ScriptLadder[i].command) == ScriptLadder[i].value
  {
  }

  lemma ScriptLadderDescends()
    ensures forall i, j :: 0 <= i < j < |ScriptLadder| ==> ScriptLadder[i].value > ScriptLadder[j].value
  {
    DescendingFromNeighbours(ScriptLadder);
  }

  /** A ladder whose neighbouring rungs descend descends throughout. */
  lemma {:induction false} DescendingFromNeighbours(ladder: seq<Rung>)
    requires forall i :: 0 < i < |ladder| ==> ladder[i - 1].value > ladder[i].value
    ensures forall i, j :: 0 <= i < j < |ladder| ==> ladder[i].value > ladder[j].value
    decreases |ladder|
  {
    if |ladder| > 1 {
      var t := ladder[1..];
      forall i | 0 < i < |t|
        ensures t[i - 1].value > t[i].value
      {
        assert t[i - 1] == ladder[i] && t[i] == ladder[i + 1];
      }
      DescendingFromNeighbours(t);
      forall i, j | 0 <= i < j < |ladder|
        ensures ladder[i].value > ladder[j].value
      {
        if i > 0 {
          assert ladder[i] == t[i - 1] && ladder[j] == t[j - 1];
        } else if j > 1 {
          assert ladder[1] == t[0] && ladder[j] == t[j - 1];
        }
      }
    }
  }

  /** What `calculateChangeCommands` guarantees for a change of c cents: it
      queues only dispense commands, in non-increasing value; their sum never
      exceeds c and leaves less than 10 cents, exactly c % 10, so the
      undispensable-remainder log fires exactly when c is not a multiple of
      10 cents; below 10 cents (zero and negative included) nothing is
      queued. */
  lemma ChangePlanFacts(c: int)
    ensures forall k :: 0 <= k < |ChangePlan(c).commands| ==> IsCambio(ChangePlan(c).commands[k])
    ensures NonIncreasing(ChangePlan(c).commands)
    ensures Sum(ChangePlan(c).commands) + ChangePlan(c).remaining == c
    ensures c >= 0 ==> Sum(ChangePlan(c).commands) <= c && ChangePlan(c).remaining == c % 10
    ensures c < 10 ==> ChangePlan(c) == Plan([], c)
  {
    var l := ScriptLadder;
    ScriptLadderWellFormed();
    var p := ChangePlan(c);
    GreedySum(l, c);
    GreedyValues(l, c);
    GreedySorted(l, c);
    GreedyRemainder(l, c);
    if c >= 0 {
      SumIsTens(p.commands);
      TensRemainder(c, Sum(p.commands), p.remaining);
    }
  }

  /** How often each value is dispensed for a change of c >= 0 cents: 3.00
      exactly c / 300 times, 0.20 at most twice, every other value at most
      once. */
  lemma ChangeCounts(c: int)
    requires c >= 0
    ensures Count(ChangePlan(c).commands, Cambio3Bs) == c / 300
    ensures Count(ChangePlan(c).commands, Cambio2_50Bs) <= 1
    ensures Count(ChangePlan(c).commands, Cambio2Bs) <= 1
    ensures Count(ChangePlan(c).commands, Cambio1_50Bs) <= 1
    ensures Count(ChangePlan(c).commands, Cambio1Bs) <= 1
    ensures Count(ChangePlan(c).commands, Cambio50Ctvs) <= 1
    ensures Count(ChangePlan(c).commands, Cambio20Ctvs) <= 2
    ensures Count(ChangePlan(c).commands, Cambio10Ctvs) <= 1
  {
    ScriptLadderWellFormed();
    UpperCounts(c);
    LowerCounts(c);
  }

  lemma UpperCounts(c: int)
    requires c >= 0 && WellFormed(ScriptLadder)
    ensures Count(ChangePlan(c).commands, Cambio3Bs) == c / 300
    ensures Count(ChangePlan(c).commands, Cambio2_50Bs) <= 1
    ensures Count(ChangePlan(c).commands, Cambio2Bs) <= 1
    ensures Count(ChangePlan(c).commands, Cambio1_50Bs) <= 1
  {
    var l := ScriptLadder;
    FirstRungCount(l, c);
    LaterRungCount(l, 1, c);
    LaterRungCount(l, 2, c);
    LaterRungCount(l, 3, c);
  }

  lemma LowerCounts(c: int)
    requires c >= 0 && WellFormed(ScriptLadder)
    ensures Count(ChangePlan(c).commands, Cambio1Bs) <= 1
    ensures Count(ChangePlan(c).commands, Cambio50Ctvs) <= 1
    ensures Count(ChangePlan(c).commands, Cambio20Ctvs) <= 2
    ensures Count(ChangePlan(c).commands, Cambio10Ctvs) <= 1
  {
    var l := ScriptLadder;
    LaterRungCount(l, 4, c);
    LaterRungCount(l, 5, c);
    LaterRungCount(l, 6, c);
    LaterRungCount(l, 7, c);
  }

  /** The TypeScript copy computes the same plan, and every command it queues
      has the same bytes in both tables. */
  lemma CalculatorAgrees(c: int)
    ensures CalculatorChangePlan(c) == ChangePlan(c)
    ensures forall k :: 0 <= k < |CalculatorChangePlan(c).commands| ==>
      CalculatorBytes(CalculatorChangePlan(c).commands[k]) == ScriptBytes(ChangePlan(c).commands[k])
  {
    assert CalculatorLadder == ScriptLadder;
    forall k | 0 <= k < |CalculatorChangePlan(c).commands| {
      TablesAgree(CalculatorChangePlan(c).commands[k]);
    }
  }
}

=== FILE: coin.dfy ===
/** The coin line: framing of the running hex buffer, coin decoding and the
    tube-status parser. Everything here works on the upper-case hex text of
    the received bytes, character by character, as the source does. */
module Coin {
  import opened Commands
  import opened Text

  /** The buffer is cut back to its last `BufferKeep` characters once it is
      longer than `BufferBound`. */
  const BufferBound: nat := 100
  const BufferKeep: nat := 50

  const FrameStart: string := "06"
  const FrameEnd: string := "1003"

  // ---------------------------------------------------------------------
  // Framing

  /** A frame as the loop extracts it: "06", anything, then "1003". */
  predicate IsFrame(f: string) {
    |f| >= 6 && f[..2] == FrameStart && f[|f| - 4..] == FrameEnd
  }

  /** Some "06" in the text has a "1003" at or after it, so the loop would
      extract another frame. */
  predicate HasFrame(text: string) {
    exists i, j :: 0 <= i <= j < |text| && OccursAt(text, FrameStart, i) && OccursAt(text, FrameEnd, j)
  }

  predicate IsSuffix(rest: string, text: string) {
    |rest| <= |text| && text[|text| - |rest|..] == rest
  }

  /** The frames the loop extracts, in order, and what it leaves in the buffer. */
  datatype Framing = Framing(frames: seq<string>, rest: string)

  /** One round of the loop: the first "06", the first "1003" at or after it,
      the frame between them (trailer included) and the text after it. */
  datatype Cut = Cut(frame: string, after: string)

  /** The condition of the framing loop: an "06", and a "1003" at or after
      the first "06". */
  predicate FrameAhead(buffer: string) {
    var start := IndexOf(buffer, FrameStart, 0);
    start != -1 && IndexOf(buffer, FrameEnd, start) != -1
  }

  function NextFrame(buffer: string): (c: Cut)
    requires FrameAhead(buffer)
    ensures IsFrame(c.frame)
    ensures IsSuffix(c.after, buffer) && |c.after| + |c.frame| <= |buffer|
    ensures var start := |buffer| - |c.after| - |c.frame|;
      && OccursAt(buffer, FrameStart, start)
      && (forall k :: 0 <= k < start ==> !OccursAt(buffer, FrameStart, k))
      && buffer[start..start + |c.frame|] == c.frame
      && (forall k :: start <= k < start + |c.frame| - 4 ==> !OccursAt(buffer, FrameEnd, k))
  {
    var start := IndexOf(buffer, FrameStart, 0);
    var end := IndexOf(buffer, FrameEnd, start);
    FrameBetween(buffer, start, end);
    Cut(buffer[start..end + 4], buffer[end + 4..])
  }

  /** An "06" with a "1003" at or after it delimits a frame: the two cannot
      overlap, so the frame has at least six characters. */
  lemma FrameBetween(text: string, i: int, j: int)
    requires 0 <= i <= j && OccursAt(text, FrameStart, i) && OccursAt(text, FrameEnd, j)
    ensures j + 4 <= |text| && i + 6 <= j + 4 && IsFrame(text[i..j + 4])
  {
    assert text[j] == text[j..j + 4][0] == '1';
    assert text[i] == text[i..i + 2][0] == '0';
    assert text[i + 1] == text[i..i + 2][1] == '6';
    var frame := text[i..j + 4];
    assert frame[..2] == text[i..i + 2];
    assert frame[|frame| - 4..] == text[j..j + 4];
  }

  /** The loop is entered exactly when some "06" has a "1003" after it. */
  lemma LoopCondition(buffer: string)
    ensures FrameAhead(buffer) <==> HasFrame(buffer)
  {
    var start := IndexOf(buffer, FrameStart, 0);
    if start != -1 {
      var end := IndexOf(buffer, FrameEnd, start);
      if end != -1 {
        assert OccursAt(buffer, FrameStart, start) && OccursAt(buffer, FrameEnd, end);
      }
    }
    if HasFrame(buffer) {
      var i, j :| 0 <= i <= j < |buffer| && OccursAt(buffer, FrameStart, i) && OccursAt(buffer, FrameEnd, j);
      assert start != -1 && start <= i;
      assert IndexOf(buffer, FrameEnd, start) != -1;
    }
  }

  /** The framing loop of the coin handler as a function: repeat NextFrame
      while a frame is present. Every extracted piece is a frame, what is left
      holds no "06" with a "1003" after it, and it is a suffix of the input. */
  function Frames(buffer: string): (r: Framing)
    ensures forall k :: 0 <= k < |r.frames| ==> IsFrame(r.frames[k])
    ensures !HasFrame(r.rest)
    ensures IsSuffix(r.rest, buffer)
    ensures |r.frames| == 0 <==> r.rest == buffer
    decreases |buffer|
  {
    if !FrameAhead(buffer) then
      LoopCondition(buffer);
      Framing([], buffer)
    else
      var c := NextFrame(buffer);
      var r := Frames(c.after);
      SuffixTransitive(r.rest, c.after, buffer);
      var frames := [c.frame] + r.frames;
      assert forall k :: 0 < k < |frames| ==> frames[k] == r.frames[k - 1];
      Framing(frames, r.rest)
  }

  lemma SuffixTransitive(a: string, b: string, c: string)
    requires IsSuffix(a, b) && IsSuffix(b, c)
    ensures IsSuffix(a, c)
  {
    assert c[|c| - |a|..] == c[|c| - |b|..][|b| - |a|..];
  }

  /** The framing loop as written (`indexOf`, `slice`, repeat): it ends
      because each round removes at least a six-character frame, and it
      extracts exactly what Frames describes. */
  method ScanFrames(buffer: string) returns (frames: seq<string>, rest: string)
    ensures Framing(frames, rest) == Frames(buffer)
    ensures forall k :: 0 <= k < |frames| ==> IsFrame(frames[k])
    ensures !HasFrame(rest) && IsSuffix(rest, buffer)
  {
    frames := [];
    rest := buffer;
    var start := IndexOf(rest, FrameStart, 0);
    var end := IndexOf(rest, FrameEnd, start);
    while start != -1 && end != -1
      invariant start == IndexOf(rest, FrameStart, 0) && end == IndexOf(rest, FrameEnd, start)
      invariant Framing(frames + Frames(rest).frames, Frames(rest).rest) == Frames(buffer)
      decreases |rest|
    {
      var c := NextFrame(rest);
      assert c == Cut(rest[start..end + 4], rest[end + 4..]);
      assert Frames(rest).frames == [c.frame] + Frames(c.after).frames;
      assert frames + Frames(rest).frames == (frames + [c.frame]) + Frames(c.after).frames;
      frames := frames + [c.frame];
      rest := c.after;
      start := IndexOf(rest, FrameStart, 0);
      end := IndexOf(rest, FrameEnd, start);
    }
    assert Frames(rest) == Framing([], rest);
    assert frames + [] == frames;
  }

  /** The growth bound at the end of the handler. */
  function BoundBuffer(buffer: string): (r: string)
    ensures |r| <= BufferBound
    ensures IsSuffix(r, buffer)
    ensures |buffer| > BufferBound ==> |r| == BufferKeep
    ensures |buffer| <= BufferBound ==> r == buffer
  {
    if |buffer| > BufferBound then buffer[|buffer| - BufferKeep..] else buffer
  }

  /** Cutting a text back to a suffix cannot create a frame. */
  lemma SuffixHasNoFrame(rest: string, text: string)
    requires IsSuffix(rest, text) && !HasFrame(text)
    ensures !HasFrame(rest)
  {
    var d := |text| - |rest|;
    if HasFrame(rest) {
      var i, j :| 0 <= i <= j < |rest| && OccursAt(rest, FrameStart, i) && OccursAt(rest, FrameEnd, j);
      assert text[d + i..d + i + 2] == rest[i..i + 2];
      assert text[d + j..d + j + 4] == rest[j..j + 4];
      assert OccursAt(text, FrameStart, d + i) && OccursAt(text, FrameEnd, d + j);
      assert false;
    }
  }

  /** The search is by character, not by byte: in the hex text of the bytes
      10 61 00 31 a frame "061003" starts at the odd offset 1, straddling
      three bytes. */
  lemma FramingIgnoresByteBoundaries()
    ensures Frames("10610031") == Framing(["061003"], "1")
  {
    var b := "10610031";
    StraddlingCut();
    FramesUnfold(b);
    FramesOfOne();
    assert ["061003"] + [] == ["061003"];
  }

  /** One round of the loop, then the loop on what follows the frame. */
  lemma FramesUnfold(buffer: string)
    requires FrameAhead(buffer)
    ensures Frames(buffer) == Framing([NextFrame(buffer).frame] + Frames(NextFrame(buffer).after).frames,
                                      Frames(NextFrame(buffer).after).rest)
  {
  }

  lemma FramesOfOne()
    ensures Frames("1") == Framing([], "1")
  {
    assert IndexOf("1", FrameStart, 0) == -1;
  }

  lemma StraddlingCut()
    ensures FrameAhead("10610031")
    ensures NextFrame("10610031") == Cut("061003", "1")
  {
    var b := "10610031";
    StraddlingStart();
    StraddlingEnd();
    assert b[1..7] == "061003" && b[7..] == "1";
  }

  lemma StraddlingStart()
    ensures IndexOf("10610031", FrameStart, 0) == 1
  {
    var b := "10610031";
    assert b[1..3] == FrameStart;
    forall j | 0 <= j < 1 ensures !OccursAt(b, FrameStart, j) {
      assert b[0..2] == "10";
    }
    IndexOfIs(b, FrameStart, 0, 1);
  }

  lemma StraddlingEnd()
    ensures IndexOf("10610031", FrameEnd, 1) == 3
  {
    var b := "10610031";
    assert b[3..7] == FrameEnd;
    forall j | 1 <= j < 3 ensures !OccursAt(b, FrameEnd, j) {
      assert b[1..5] == "0610" && b[2..6] == "6100";
    }
    IndexOfIs(b, FrameEnd, 1, 3);
  }

  // ---------------------------------------------------------------------
  // Coin decoding

  /** `coinMapping` of `evaluateCoin`: code to value in cents; None for a
      code the table does not know. */
  function CoinMapping(code: string): Option<nat> {
    if code == "450045" then Some(500)
    else if code == "440044" then Some(200)
    else if code == "43" then Some(100)
    else if code == "42" then Some(50)
    else if code == "41" then Some(20)
    else if code == "40" then Some(10)
    else if code == "50" then Some(10)
    else if code == "51" then Some(20)
    else if code == "52" then Some(50)
    else if code == "53" then Some(100)
    else if code == "54" then Some(200)
    else if code == "55" then Some(500)
    else None
  }

  /** The coin values the validator reports, in cents. */
  const CoinValues: set<nat> := {10, 20, 50, 100, 200, 500}

  /** `evaluateCoin(frame)`: "450045" anywhere means 5.00, else "440044"
      anywhere means 2.00, else the two characters at offsets 6 and 7 are
      looked up; an unknown code is worth nothing. */
  function EvaluateCoin(frame: string): (v: nat)
    ensures v == 0 || v in CoinValues
    ensures Includes(frame, "450045") ==> v == 500
    ensures !Includes(frame, "450045") && Includes(frame, "440044") ==> v == 200
    ensures !Includes(frame, "450045") && !Includes(frame, "440044") && |frame| < 7 ==> v == 0
  {
    var code :=
      if Includes(frame, "450045") then "450045"
      else if Includes(frame, "440044") then "440044"
      else Slice(frame, 6, 8);
    match CoinMapping(code)
    case Some(x) => x
    case None => 0
  }

  /** The value a single-byte coin code stands for, read as a byte. */
  function CoinByteValue(b: Byte): nat {
    if b == 0x40 || b == 0x50 then 10
    else if b == 0x41 || b == 0x51 then 20
    else if b == 0x42 || b == 0x52 then 50
    else if b == 0x43 || b == 0x53 then 100
    else if b == 0x54 then 200
    else if b == 0x55 then 500
    else 0
  }

  /** The two code schemes agree: 40..43 and 50..53 name the same coins. */
  lemma CoinSchemesAgree()
    ensures CoinMapping("40") == CoinMapping("50") == Some(10)
    ensures CoinMapping("41") == CoinMapping("51") == Some(20)
    ensures CoinMapping("42") == CoinMapping("52") == Some(50)
    ensures CoinMapping("43") == CoinMapping("53") == Some(100)
    ensures CoinMapping("44") == None && CoinMapping("45") == None
  {
  }

  lemma TwoCharCode(a: char, b: char)
    requires IsHexDigit(a) && IsHexDigit(b)
    ensures (match CoinMapping([a, b]) case Some(x) => x case None => 0) == CoinByteValue(HexByte(a, b))
  {
    var v := HexByte(a, b);
    var codes := ["40", "41", "42", "43", "50", "51", "52", "53", "54", "55"];
    forall k | 0 <= k < |codes|
      ensures [a, b] == codes[k] <==> v == HexByte(codes[k][0], codes[k][1])
    {
      if v == HexByte(codes[k][0], codes[k][1]) {
        HexByteInjective(a, b, codes[k][0], codes[k][1]);
      }
    }
  }

  lemma SingleByteCode(frame: string)
    requires !Includes(frame, "450045") && !Includes(frame, "440044")
    ensures EvaluateCoin(frame) == match CoinMapping(Slice(frame, 6, 8)) case Some(x) => x case None => 0
  {
  }

  /** When the text holds neither two-byte code, the coin is the one named by
      the byte whose hex pair sits at offsets 6 and 7 (the fourth byte of the
      frame when the frame starts at a byte boundary). */
  lemma CoinFromPair(s: string, b: Byte)
    requires IsHexText(s) && |s| >= 8 && HexByte(s[6], s[7]) == b
    requires !Includes(s, "450045") && !Includes(s, "440044")
    ensures EvaluateCoin(s) == CoinByteValue(b)
  {
    assert Slice(s, 6, 8) == [s[6], s[7]];
    SingleByteCode(s);
    TwoCharCode(s[6], s[7]);
  }

  // ---------------------------------------------------------------------
  // Tube status

  /** `{ tubeStatus, total }` of `parseTubeStatus`: the calibrated coin count
      of each tube (0.10, 0.20, 0.50, 1.00) and the total in cents. */
  datatype TubeReport = TubeReport(count10: int, count20: int, count50: int, count100: int, total: int)

  /** `tubeMapping`: denomination in cents and counter index. */
  const TubeMapping: seq<(nat, nat)> := [(10, 0), (20, 1), (50, 2), (100, 3)]

  /** The fixed per-tube correction the source applies to a raw counter. */
  function Calibration(denomination: nat): int {
    if denomination == 10 then 1
    else if denomination == 20 then -1
    else if denomination == 50 then 2
    else if denomination == 100 then 5
    else 0
  }

  /** `hexResponse.slice(10, 42).match(/.{2}/g).map(parseInt16)`. */
  function RawCounters(hex: string): (raw: seq<Byte>)
    requires IsHexText(hex)
    ensures |raw| == |Slice(hex, 10, 42)| / 2
  {
    var w := Slice(hex, 10, 42);
    assert forall i :: 0 <= i < |w| ==> IsHexDigit(w[i]) by {
      if |hex| > 10 {
        forall i | 0 <= i < |w| ensures IsHexDigit(w[i]) {
          assert w[i] == hex[10 + i];
        }
      }
    }
    seq(|w| / 2, k requires 0 <= k < |w| / 2 => HexByte(w[2 * k], w[2 * k + 1]))
  }

  /** `tubeCountsHex[index] || 0`. */
  function CounterAt(raw: seq<Byte>, index: nat): nat {
    if index < |raw| then raw[index] else 0
  }

  /** The mapping loop: calibrated counts, and the running total over them. */
  function TubeTotal(counts: seq<int>, k: nat): int
    requires |counts| == |TubeMapping| && k <= |TubeMapping|
  {
    if k == 0 then 0 else TubeTotal(counts, k - 1) + counts[k - 1] * TubeMapping[k - 1].0
  }

  /** `parseTubeStatus(hexResponse)`. The source throws when the window at
      10..42 holds fewer than two characters, so the response must be at
      least 12 characters long; its only caller passes 48. The counts are
      raw counters plus the calibration +1, -1, +2, +5, and the total is
      their value in cents, so it is at least 5.90. */
  function ParseTubeStatus(hex: string): (r: TubeReport)
    requires IsHexText(hex) && |hex| >= 12
    ensures r.total == 10 * r.count10 + 20 * r.count20 + 50 * r.count50 + 100 * r.count100
    ensures r.count10 >= 1 && r.count20 >= -1 && r.count50 >= 2 && r.count100 >= 5
    ensures r.total >= 590
  {
    var raw := RawCounters(hex);
    var counts := seq(|TubeMapping|, k requires 0 <= k < |TubeMapping| =>
      CounterAt(raw, TubeMapping[k].1) + Calibration(TubeMapping[k].0));
    assert TubeTotal(counts, 1) == 10 * counts[0];
    assert TubeTotal(counts, 2) == TubeTotal(counts, 1) + 20 * counts[1];
    assert TubeTotal(counts, 3) == TubeTotal(counts, 2) + 50 * counts[2];
    assert TubeTotal(counts, 4) == TubeTotal(counts, 3) + 100 * counts[3];
    TubeReport(counts[0], counts[1], counts[2], counts[3], TubeTotal(counts, |TubeMapping|))
  }

  /** The report of a chunk read off the coin line. */
  function TubeStatusOf(data: seq<Byte>): (r: TubeReport)
    requires |data| == 24
    ensures r.total >= 590
  {
    ParseTubeStatus(HexEncode(data))
  }

  /** The report depends on the characters 10..17 only: the four counters. */
  lemma TubeStatusLocality(h1: string, h2: string)
    requires IsHexText(h1) && IsHexText(h2) && |h1| >= 18 && |h2| >= 18
    requires h1[10..18] == h2[10..18]
    ensures ParseTubeStatus(h1) == ParseTubeStatus(h2)
  {
    var r1, r2 := RawCounters(h1), RawCounters(h2);
    forall k | 0 <= k < 4
      ensures r1[k] == r2[k]
    {
      assert h1[10 + 2 * k] == h2[10 + 2 * k] && h1[11 + 2 * k] == h2[11 + 2 * k] by {
        assert h1[10 + 2 * k] == h1[10..18][2 * k] && h2[10 + 2 * k] == h2[10..18][2 * k];
        assert h1[11 + 2 * k] == h1[10..18][2 * k + 1] && h2[11 + 2 * k] == h2[10..18][2 * k + 1];
      }
    }
  }

  /** The four counts are the first four raw counters, calibrated. */
  lemma TubeCounts(hex: string)
    requires IsHexText(hex) && |hex| >= 12
    ensures var r, raw := ParseTubeStatus(hex), RawCounters(hex);
      && r.count10 == CounterAt(raw, 0) + 1 && r.count20 == CounterAt(raw, 1) - 1
      && r.count50 == CounterAt(raw, 2) + 2 && r.count100 == CounterAt(raw, 3) + 5
  {
  }

  /** Raw counter k of a full 24-byte response is byte 5 + k. */
  lemma RawCounterIsByte(data: seq<Byte>, k: nat)
    requires |data| == 24 && k < 16
    ensures |RawCounters(HexEncode(data))| == 16
    ensures CounterAt(RawCounters(HexEncode(data)), k) == data[5 + k]
  {
    var h := HexEncode(data);
    var w := Slice(h, 10, 42);
    assert w == h[10..42];
    HexEncodePair(data, 5 + k);
    assert w[2 * k] == h[2 * (5 + k)] && w[2 * k + 1] == h[2 * (5 + k) + 1];
  }

  /** On a full 24-byte response the four counters are bytes 5..8. */
  lemma TubeCountersAreBytes5To8(data: seq<Byte>)
    requires |data| == 24
    ensures ParseTubeStatus(HexEncode(data)).count10 == data[5] as int + 1
    ensures ParseTubeStatus(HexEncode(data)).count20 == data[6] as int - 1
    ensures ParseTubeStatus(HexEncode(data)).count50 == data[7] as int + 2
    ensures ParseTubeStatus(HexEncode(data)).count100 == data[8] as int + 5
  {
    TubeCounts(HexEncode(data));
    RawCounterIsByte(data, 0);
    RawCounterIsByte(data, 1);
    RawCounterIsByte(data, 2);
    RawCounterIsByte(data, 3);
  }

  /** A tube that reports zero 0.20 coins is counted as -1. */
  lemma TubeCountCanBeNegative()
    ensures ParseTubeStatus("000000000000000000").count20 == -1
  {
    var h := "000000000000000000";
    assert Slice(h, 10, 42) == "00000000";
    assert RawCounters(h)[1] == HexByte('0', '0') == 0;
  }
}

=== FILE: commands.dfy ===
/** The fixed byte sequences the controller writes to its two devices: the bill
    acceptor and the coin validator/hopper. The table exists twice in the
    repository (server/types/script.js and its TypeScript copy
    server/utils/serial/ChangeCalculator.ts); both copies are transcribed here
    byte for byte and proved equal. */
module Commands {

  type Byte = x: int | 0 <= x < 256

  /** The two serial lines. */
  datatype Port = BillPort | CoinPort

  /** One write to a serial line. `delay` is the time in milliseconds, after
      the input that caused it, at which the write happens (the source's
      `setTimeout` offsets); writes with equal delay go out in log order. */
  datatype Send = Send(port: Port, command: CommandName, delay: nat)

  /** The symbolic names of the command table, in declaration order. */
  datatype CommandName =
    // bill acceptor
    | BillEnables | Status | AcceptBill | RejectBill | InhibitBills
    | DesinhibitBilletero | BilleteroEnEspera
    | Enable10 | Enable10_20 | Enable10_20_50 | Enable10_20_50_100
    | Enable10_20_50_100_200 | EnableAll
    // coin validator / hopper
    | EnableMonedero | InhibitMonedero | TubeStatus | PullMonedero
    | Cambio10Ctvs | Cambio20Ctvs | Cambio50Ctvs | Cambio1Bs | Cambio1_50Bs
    | Cambio2Bs | Cambio2_50Bs | Cambio3Bs

  /** The device a command is meant for. */
  function PortOf(n: CommandName): Port {
    match n
    case EnableMonedero | InhibitMonedero | TubeStatus | PullMonedero
      | Cambio10Ctvs | Cambio20Ctvs | Cambio50Ctvs | Cambio1Bs | Cambio1_50Bs
      | Cambio2Bs | Cambio2_50Bs | Cambio3Bs => CoinPort
    case _ => BillPort
  }

  /** A dispense ("cambio") command of the hopper. */
  predicate IsCambio(n: CommandName) {
    n.Cambio10Ctvs? || n.Cambio20Ctvs? || n.Cambio50Ctvs? || n.Cambio1Bs?
    || n.Cambio1_50Bs? || n.Cambio2Bs? || n.Cambio2_50Bs? || n.Cambio3Bs?
  }

  /** Value in cents that a dispense command pays out; 0 for every other command. */
  function CambioValue(n: CommandName): nat {
    match n
    case Cambio10Ctvs => 10
    case Cambio20Ctvs => 20
    case Cambio50Ctvs => 50
    case Cambio1Bs => 100
    case Cambio1_50Bs => 150
    case Cambio2Bs => 200
    case Cambio2_50Bs => 250
    case Cambio3Bs => 300
    case _ => 0
  }

  /** `COMMANDS` of server/types/script.js, verbatim. */
  function ScriptBytes(n: CommandName): seq<Byte> {
    match n
    case BillEnables => [0x02, 0x06, 0x41, 0xFF, 0xFF, 0xB9]
    case Status => [0x02, 0x04, 0xCC, 0x2E]
    case AcceptBill => [0x02, 0x04, 0x80, 0x7A]
    case RejectBill => [0x02, 0x04, 0x81, 0x79]
    case InhibitBills => [0x02, 0x04, 0xF0, 0x0A]
    case DesinhibitBilletero => [0x02, 0x04, 0xF1, 0x09]
    case BilleteroEnEspera => [0x02, 0x05, 0x40, 0x00, 0xB6]
    case Enable10 => [0x02, 0x06, 0x41, 0x01, 0x01, 0xB5]
    case Enable10_20 => [0x02, 0x08, 0x41, 0x01, 0x01, 0x02, 0x02, 0xA9]
    case Enable10_20_50 => [0x02, 0x08, 0x41, 0x01, 0x01, 0x02, 0x02, 0x03, 0x03, 0x59]
    case Enable10_20_50_100 =>
      [0x02, 0x0A, 0x41, 0x01, 0x01, 0x02, 0x02, 0x03, 0x03, 0x04, 0x04, 0x9F]
    case Enable10_20_50_100_200 =>
      [0x02, 0x0C, 0x41, 0x01, 0x01, 0x02, 0x02, 0x03, 0x03, 0x04, 0x04, 0x05, 0x05, 0x93]
    case EnableAll =>
      [0x02, 0x0C, 0x41, 0x01, 0x01, 0x02, 0x02, 0x03, 0x03, 0x04, 0x04, 0x05, 0x05, 0x93]
    case EnableMonedero => [0x02, 0x00, 0x0C, 0x00, 0x3F, 0x00, 0x3F, 0x10, 0x03]
    case InhibitMonedero => [0x02, 0x00, 0x0C, 0x00, 0x00, 0x00, 0x00, 0x10, 0x03]
    case TubeStatus => [0x02, 0x00, 0x0A, 0x10, 0x03]
    case PullMonedero => [0x02, 0x00, 0x0B, 0x10, 0x03]
    case Cambio10Ctvs => [0x02, 0x00, 0x0F, 0x02, 0x01, 0x10, 0x03]
    case Cambio20Ctvs => [0x02, 0x00, 0x0F, 0x02, 0x02, 0x10, 0x03]
    case Cambio50Ctvs => [0x02, 0x00, 0x0F, 0x02, 0x05, 0x10, 0x03]
    case Cambio1Bs => [0x02, 0x00, 0x0F, 0x02, 0x0A, 0x10, 0x03]
    case Cambio1_50Bs => [0x02, 0x00, 0x0F, 0x02, 0x0F, 0x10, 0x03]
    case Cambio2Bs => [0x02, 0x00, 0x0F, 0x02, 0x14, 0x10, 0x03]
    case Cambio2_50Bs => [0x02, 0x00, 0x0F, 0x02, 0x19, 0x10, 0x03]
    case Cambio3Bs => [0x02, 0x00, 0x0F, 0x02, 0x1E, 0x10, 0x03]
  }

  /** `COMMANDS` of server/utils/serial/ChangeCalculator.ts, verbatim. */
  function CalculatorBytes(n: CommandName): seq<Byte> {
    match n
    case BillEnables => [0x02, 0x06, 0x41, 0xff, 0xff, 0xb9]
    case Status => [0x02, 0x04, 0xcc, 0x2e]
    case AcceptBill => [0x02, 0x04, 0x80, 0x7a]
    case RejectBill => [0x02, 0x04, 0x81, 0x79]
    case InhibitBills => [0x02, 0x04, 0xf0, 0x0a]
    case DesinhibitBilletero => [0x02, 0x04, 0xf1, 0x09]
    case BilleteroEnEspera => [0x02, 0x05, 0x40, 0x00, 0xb6]
    case Enable10 => [0x02, 0x06, 0x41, 0x01, 0x01, 0xb5]
    case Enable10_20 => [0x02, 0x08, 0x41, 0x01, 0x01, 0x02, 0x02, 0xa9]
    case Enable10_20_50 => [0x02, 0x08, 0x41, 0x01, 0x01, 0x02, 0x02, 0x03, 0x03, 0x59]
    case Enable10_20_50_100 =>
      [0x02, 0x0a, 0x41, 0x01, 0x01, 0x02, 0x02, 0x03, 0x03, 0x04, 0x04, 0x9f]
    case Enable10_20_50_100_200 =>
      [0x02, 0x0c, 0x41, 0x01, 0x01, 0x02, 0x02, 0x03, 0x03, 0x04, 0x04, 0x05, 0x05, 0x93]
    case EnableAll =>
      [0x02, 0x0c, 0x41, 0x01, 0x01, 0x02, 0x02, 0x03, 0x03, 0x04, 0x04, 0x05, 0x05, 0x93]
    case EnableMonedero => [0x02, 0x00, 0x0c, 0x00, 0x3f, 0x00, 0x3f, 0x10, 0x03]
    case InhibitMonedero => [0x02, 0x00, 0x0c, 0x00, 0x00, 0x00, 0x00, 0x10, 0x03]
    case TubeStatus => [0x02, 0x00, 0x0a, 0x10, 0x03]
    case PullMonedero => [0x02, 0x00, 0x0b, 0x10, 0x03]
    case Cambio10Ctvs => [0x02, 0x00, 0x0f, 0x02, 0x01, 0x10, 0x03]
    case Cambio20Ctvs => [0x02, 0x00, 0x0f, 0x02, 0x02, 0x10, 0x03]
    case Cambio50Ctvs => [0x02, 0x00, 0x0f, 0x02, 0x05, 0x10, 0x03]
    case Cambio1Bs => [0x02, 0x00, 0x0f, 0x02, 0x0a, 0x10, 0x03]
    case Cambio1_50Bs => [0x02, 0x00, 0x0f, 0x02, 0x0f, 0x10, 0x03]
    case Cambio2Bs => [0x02, 0x00, 0x0f, 0x02, 0x14, 0x10, 0x03]
    case Cambio2_50Bs => [0x02, 0x00, 0x0f, 0x02, 0x19, 0x10, 0x03]
    case Cambio3Bs => [0x02, 0x00, 0x0f, 0x02, 0x1e, 0x10, 0x03]
  }

  /** The hopper's dispense frame for k tenths of a Boliviano. */
  function CambioFrame(k: Byte): seq<Byte> {
    [0x02, 0x00, 0x0F, 0x02, k, 0x10, 0x03]
  }

  /** The two copies of the table agree on every command. */
  lemma TablesAgree(n: CommandName)
    ensures CalculatorBytes(n) == ScriptBytes(n)
  {
  }

  /** `EnableAll` is byte-identical to the enable command for all five bills. */
  lemma EnableAllIsFullEnable()
    ensures ScriptBytes(EnableAll) == ScriptBytes(Enable10_20_50_100_200)
    ensures CalculatorBytes(EnableAll) == CalculatorBytes(Enable10_20_50_100_200)
  {
  }

  /** Every dispense command is the frame 02 00 0F 02 k 10 03 with k its value
      in tenths of a Boliviano, k in 0x01..0x1E; it is a coin-line command. */
  lemma CambioLayout(n: CommandName)
    requires IsCambio(n)
    ensures 10 <= CambioValue(n) <= 300 && CambioValue(n) % 10 == 0
    ensures ScriptBytes(n) == CambioFrame(CambioValue(n) / 10)
    ensures PortOf(n) == CoinPort
  {
  }

  /** Every coin-line command is framed 02 00 ... 10 03. */
  lemma CoinLineFraming(n: CommandName)
    requires PortOf(n) == CoinPort
    ensures |ScriptBytes(n)| >= 5 && ScriptBytes(n)[..2] == [0x02, 0x00]
    ensures ScriptBytes(n)[|ScriptBytes(n)| - 2..] == [0x10, 0x03]
  {
  }

  /** Every bill-line command starts 02 and a non-zero length byte. */
  lemma BillLineFraming(n: CommandName)
    requires PortOf(n) == BillPort
    ensures |ScriptBytes(n)| >= 4 && ScriptBytes(n)[0] == 0x02 && ScriptBytes(n)[1] != 0x00
  {
  }

  /** The bill-enable commands, indexed by how many bills they admit. */
  const EnableLadder: seq<CommandName> :=
    [InhibitBills, Enable10, Enable10_20, Enable10_20_50, Enable10_20_50_100, Enable10_20_50_100_200]

  /** The second byte of a bill command is its total length, except for the
      three longest enable commands: `Enable10_20_50` says 8 but has 10 bytes,
      `Enable10_20_50_100` says 10 but has 12, the five-bill enable says 12
      but has 14. */
  lemma BillLengthBytes(n: CommandName)
    requires PortOf(n) == BillPort
    ensures ScriptBytes(n)[1] == |ScriptBytes(n)| <==>
      !(n.Enable10_20_50? || n.Enable10_20_50_100? || n.Enable10_20_50_100_200? || n.EnableAll?)
    ensures n.Enable10_20_50? ==> ScriptBytes(n)[1] == 0x08 && |ScriptBytes(n)| == 10
  {
  }
}

=== FILE: controller.dfy ===
/** The payment controller of server/types/script.js as pure step functions:
    the module-level variables become a `State` record, each handler takes the
    state and its input (and the clock reading, where the handler reads
    `Date.now()`) and returns the new state, the writes it makes, in order,
    and the events it emits. Money is in cents. */
module Controller {
  import opened Commands
  import opened Text
  import opened Change
  import opened Coin
  import opened Bill

  /** A chunk equal to the previous one is dropped if it arrives within this
      many milliseconds of it. */
  const DuplicateWindowMs: int := 200
  /** After a bill is stacked, bill chunks are ignored for this long. */
  const SettleWindowMs: int := 1500
  /** The tube total (4.90) from which the devices are enabled. */
  const TubeGateCents: int := 490
  /** The pause between two dispense commands. */
  const DispenseDelayMs: nat := 500

  /** The module-level variables the handlers read and write: `targetAmount`,
      `totalAmount`, `lastCommand`, `lastCommandTime`, `lastApiladoTime`,
      `responseBuffer`, and the number of tube-status listeners waiting for
      the next chunk of the coin line. `lastCommand` holds the previous bill
      chunk itself rather than its spaced hex rendering: the rendering is
      injective (Text.HexEncodeInjective), so comparing either is the same. */
  datatype State = State(
    target: int,
    total: int,
    lastCommand: seq<Byte>,
    lastCommandTime: int,
    lastStackedTime: int,
    coinBuffer: string,
    pendingTubeQueries: nat)

  /** The values at start-up. */
  const Initial := State(0, 0, [], 0, 0, "", 0)

  /** What the controller emits to the rest of the application. */
  datatype Event =
    | TubeStatusEvent(total: int, acceptedBills: seq<nat>)
    | PaymentCompleted(message: string, totalPaid: string, change: Option<string>)

  /** The outcome of one handler run. */
  datatype Step = Step(state: State, sent: seq<Send>, events: seq<Event>)

  /** `inhibitDevices`: coin validator first, then bill acceptor. */
  const InhibitDevices: seq<Send> := [Send(CoinPort, InhibitMonedero, 0), Send(BillPort, InhibitBills, 0)]

  /** `enableDevices`: coin validator first, then bill acceptor (the polling
      timers they start are not modelled). */
  const EnableDevices: seq<Send> := [Send(CoinPort, EnableMonedero, 0), Send(BillPort, BillEnables, 0)]

  /** The only reply to a stacked bill that the handler could write besides
      AcceptBill. */
  const RejectReply: seq<Send> := [Send(BillPort, RejectBill, 0)]

  /** No write in the log is a RejectBill. */
  predicate NoReject(sent: seq<Send>) {
    forall k :: 0 <= k < |sent| ==> sent[k].command != RejectBill
  }

  /** The sequence begins with `first`. */
  predicate StartsWith<T(==)>(xs: seq<T>, first: seq<T>) {
    |first| <= |xs| && xs[..|first|] == first
  }

  /** A sequence that begins with `first` still does with more after it. */
  lemma StartsWithAppend<T>(a: seq<T>, b: seq<T>, first: seq<T>)
    requires StartsWith(a, first)
    ensures StartsWith(a + b, first)
  {
    assert (a + b)[..|first|] == a[..|first|];
  }

  // ---------------------------------------------------------------------
  // Change delivery and payment completion

  /** `deliverChange(commands)`, entered for the `step`-th time: it writes the
      head at once and calls itself again 500 ms later on the rest. The k-th
      command of the queue goes out 500 k ms after the first. */
  function DeliverChange(cmds: seq<CommandName>, step: nat): (sent: seq<Send>)
    ensures |sent| == |cmds|
    ensures forall k :: 0 <= k < |cmds| ==> sent[k] == Send(CoinPort, cmds[k], DispenseDelayMs * (step + k))
    decreases |cmds|
  {
    if cmds == [] then []
    else
      var rest := DeliverChange(cmds[1..], step + 1);
      var sent := [Send(CoinPort, cmds[0], DispenseDelayMs * step)] + rest;
      assert forall k :: 1 <= k < |cmds| ==> sent[k] == rest[k - 1];
      sent
  }

  /** The dispense commands of a write log, in order. */
  function Dispensed(sent: seq<Send>): seq<CommandName> {
    if sent == [] then []
    else (if IsCambio(sent[0].command) then [sent[0].command] else []) + Dispensed(sent[1..])
  }

  lemma {:induction false} DispensedAppend(a: seq<Send>, b: seq<Send>)
    ensures Dispensed(a + b) == Dispensed(a) + Dispensed(b)
    decreases |a|
  {
    if a == [] {
      assert a + b == b;
    } else {
      assert (a + b)[0] == a[0];
      assert (a + b)[1..] == a[1..] + b;
      DispensedAppend(a[1..], b);
      var h := if IsCambio(a[0].command) then [a[0].command] else [];
      assert Dispensed(a + b) == h + (Dispensed(a[1..]) + Dispensed(b));
      assert h + (Dispensed(a[1..]) + Dispensed(b)) == (h + Dispensed(a[1..])) + Dispensed(b);
    }
  }

  /** Delivering a queue of dispense commands dispenses exactly that queue. */
  lemma {:induction false} DispensedDelivery(cmds: seq<CommandName>, step: nat)
    requires forall k :: 0 <= k < |cmds| ==> IsCambio(cmds[k])
    ensures Dispensed(DeliverChange(cmds, step)) == cmds
    decreases |cmds|
  {
    if cmds != [] {
      var sent := DeliverChange(cmds, step);
      assert sent[1..] == DeliverChange(cmds[1..], step + 1);
      DispensedDelivery(cmds[1..], step + 1);
      assert [cmds[0]] + cmds[1..] == cmds;
    }
  }

  /** The change plan for a positive change, nothing otherwise. */
  function ChangeQueue(change: int): (cmds: seq<CommandName>)
    ensures forall k :: 0 <= k < |cmds| ==> IsCambio(cmds[k])
    ensures change > 0 ==> Sum(cmds) + change % 10 == change
    ensures change <= 0 ==> cmds == []
  {
    ChangePlanFacts(change);
    if change > 0 then ChangePlan(change).commands else []
  }

  /** A log between two `inhibitDevices` calls. */
  function Framed(d: seq<Send>): seq<Send> {
    InhibitDevices + d + InhibitDevices
  }

  lemma FramedLayout(d: seq<Send>)
    ensures |Framed(d)| == |d| + 4
    ensures Framed(d)[..2] == InhibitDevices && Framed(d)[|Framed(d)| - 2..] == InhibitDevices
    ensures forall k :: 2 <= k < |Framed(d)| - 2 ==> Framed(d)[k] == d[k - 2]
  {
    var sent := Framed(d);
    forall k | 2 <= k < |sent| - 2
      ensures sent[k] == d[k - 2]
    {
      assert sent[k] == (InhibitDevices + d)[k];
    }
  }

  lemma FramedDispensed(d: seq<Send>)
    ensures Dispensed(Framed(d)) == Dispensed(d)
  {
    DispensedAppend(InhibitDevices, d);
    DispensedAppend(InhibitDevices + d, InhibitDevices);
    assert Dispensed(InhibitDevices) == [];
    assert [] + Dispensed(d) + [] == Dispensed(d);
  }

  lemma FramedNoReject(d: seq<Send>)
    requires NoReject(d)
    ensures NoReject(Framed(d))
  {
    var sent := Framed(d);
    FramedLayout(d);
    forall k | 0 <= k < |sent|
      ensures sent[k].command != RejectBill
    {
      if k < 2 {
        assert sent[k] == sent[..2][k];
      } else if k >= |sent| - 2 {
        assert sent[k] == sent[|sent| - 2..][k - (|sent| - 2)];
      }
    }
  }

  lemma DeliveryNoReject(cmds: seq<CommandName>, step: nat)
    requires forall k :: 0 <= k < |cmds| ==> IsCambio(cmds[k])
    ensures NoReject(DeliverChange(cmds, step))
  {
  }

  /** What a completion writes for a change of `change` cents: inhibit both
      devices, deliver the change queue, inhibit both devices again. */
  function PaymentSends(change: int): (sent: seq<Send>)
    ensures |sent| == |ChangeQueue(change)| + 4
    ensures sent[..2] == InhibitDevices && sent[|sent| - 2..] == InhibitDevices
    ensures forall k :: 2 <= k < |sent| - 2 ==>
      sent[k] == Send(CoinPort, ChangeQueue(change)[k - 2], DispenseDelayMs * (k - 2))
    ensures Dispensed(sent) == ChangeQueue(change)
    ensures NoReject(sent)
  {
    var queue := ChangeQueue(change);
    var d := DeliverChange(queue, 0);
    FramedLayout(d);
    FramedDispensed(d);
    DispensedDelivery(queue, 0);
    DeliveryNoReject(queue, 0);
    FramedNoReject(d);
    Framed(d)
  }

  /** On the wire only the first dispense precedes the second
      `inhibitDevices`: every later dispense is scheduled after it, 500 ms
      apart. */
  lemma LaterDispensesFollowInhibit(change: int)
    ensures var sent := PaymentSends(change);
      && sent[|sent| - 2].delay == 0 && sent[|sent| - 1].delay == 0
      && (|sent| > 4 ==> sent[2].delay == 0)
      && forall k :: 3 <= k < |sent| - 2 ==> sent[k].delay >= DispenseDelayMs
  {
  }

  /** The `paymentCompleted` payload: `totalPaid` is printed after the total
      was zeroed, so it is always "0.00"; the change is printed with two
      decimals and reads back as the change, or is absent when there is none. */
  function CompletionEvent(change: int): (e: Event)
    ensures e.PaymentCompleted? && e.totalPaid == "0.00"
    ensures e.change.Some? <==> change > 0
    ensures e.change.Some? ==> |e.change.value| >= 4 && ParseFixed2(e.change.value) == change
  {
    Fixed2OfZero();
    if change > 0 then
      Fixed2RoundTrip(change);
      PaymentCompleted("Pago completado", Fixed2(0), Some(Fixed2(change)))
    else
      PaymentCompleted("Pago completado", Fixed2(0), None)
  }

  /** `evaluatePayment()`. It completes exactly when the total has reached
      the target; then the total is zeroed, one completion event for the
      change total - target is emitted, and the change is dispensed. */
  function EvaluatePayment(s: State): (r: Step)
    ensures r.events != [] <==> s.total >= s.target
    ensures s.total < s.target ==> r == Step(s, [], [])
    ensures s.total >= s.target ==> r.state == s.(total := 0)
    ensures r.state.total == 0 || r.state.total < r.state.target
    ensures s.total >= s.target ==>
      && |r.events| == 1 && r.events[0].PaymentCompleted?
      && r.events[0].totalPaid == "0.00"
      && (r.events[0].change.Some? <==> s.total > s.target)
    ensures s.total >= s.target && r.events[0].change.Some? ==>
      |r.events[0].change.value| >= 4 && ParseFixed2(r.events[0].change.value) == s.total - s.target
    ensures s.total >= s.target ==> Dispensed(r.sent) == ChangeQueue(s.total - s.target)
    ensures s.total >= s.target ==> r.sent == PaymentSends(s.total - s.target)
    ensures s.total >= s.target ==> r.events == [CompletionEvent(s.total - s.target)]
    ensures NoReject(r.sent)
  {
    Settle(s, s.total)
  }

  /** `evaluatePayment()` right after the total has become `paid`: the
      handlers add a coin or a bill to the total and evaluate at once. */
  function Settle(s: State, paid: int): (r: Step)
    ensures r.events != [] <==> paid >= s.target
    ensures paid < s.target ==> r == Step(s.(total := paid), [], [])
    ensures paid >= s.target ==> r.state == s.(total := 0)
    ensures paid >= s.target ==> r.sent == PaymentSends(paid - s.target)
    ensures paid >= s.target ==> r.events == [CompletionEvent(paid - s.target)]
    ensures NoReject(r.sent)
  {
    if paid >= s.target then
      var change := paid - s.target;
      Step(s.(total := 0), PaymentSends(change), [CompletionEvent(change)])
    else
      Step(s.(total := paid), [], [])
  }

  /** The change that a completion dispenses is the change owed less what no
      coin can pay (under 0.10), and the k-th dispense goes out 500 k ms
      after the input that completed the payment. */
  lemma PaymentDispensesChange(s: State)
    requires s.total > s.target
    ensures Sum(Dispensed(EvaluatePayment(s).sent)) == s.total - s.target - (s.total - s.target) % 10
    ensures Sum(Dispensed(EvaluatePayment(s).sent)) <= s.total - s.target
    ensures forall k :: 2 <= k < |EvaluatePayment(s).sent| - 2 ==>
      EvaluatePayment(s).sent[k].port == CoinPort && EvaluatePayment(s).sent[k].delay == DispenseDelayMs * (k - 2)
  {
    assert EvaluatePayment(s).sent == PaymentSends(s.total - s.target);
  }

  // ---------------------------------------------------------------------
  // Session start and the tube-status reply

  /** `requestAmount(amount)`: a positive amount becomes the target (the
      accumulated total is left as it is), a tube-status query is written and
      its reply listener registered, and the bill acceptor is enabled and
      released. Anything else (`None` stands for NaN) is ignored. */
  function RequestAmount(s: State, amount: Option<int>): (r: Step)
    ensures r.state.total == s.total
    ensures !(amount.Some? && amount.value > 0) ==> r == Step(s, [], [])
    ensures amount.Some? && amount.value > 0 ==>
      && r.state == s.(target := amount.value, pendingTubeQueries := s.pendingTubeQueries + 1)
      && r.events == []
      && r.sent == [Send(CoinPort, TubeStatus, 0), Send(BillPort, BillEnables, 0), Send(BillPort, DesinhibitBilletero, 0)]
    ensures NoReject(r.sent)
  {
    if amount.Some? && amount.value > 0 then
      Step(s.(target := amount.value, pendingTubeQueries := s.pendingTubeQueries + 1),
           [Send(CoinPort, TubeStatus, 0), Send(BillPort, BillEnables, 0), Send(BillPort, DesinhibitBilletero, 0)],
           [])
    else
      Step(s, [], [])
  }

  /** The total the tube-status parser finds on any 24-byte reply clears the
      4.90 gate. */
  lemma TubeGateAlwaysOpen(data: seq<Byte>)
    requires |data| == 24
    ensures ParseTubeStatus(HexEncode(data)).total >= TubeGateCents
  {
  }

  /** The listener `checkCoinTubes` registers, run on the next coin chunk:
      parse the tube counts, choose the bill tier of the current target
      (hold, then enable, 50 ms later), emit both, and enable the devices,
      which the gate always lets through. */
  function TubeStatusReply(s: State, data: seq<Byte>): (r: Step)
    requires |data| == 24
    ensures r.state == s
    ensures r.sent == DetermineBillAcceptance(s.target).sent + EnableDevices
    ensures r.events == [TubeStatusEvent(TubeStatusOf(data).total, DetermineBillAcceptance(s.target).bills)]
    ensures NoReject(r.sent)
  {
    var report := TubeStatusOf(data);
    var setup := DetermineBillAcceptance(s.target);
    var gate := if report.total >= TubeGateCents then EnableDevices else [];
    NoRejectAppend(setup.sent, EnableDevices);
    Step(s, setup.sent + gate, [TubeStatusEvent(report.total, setup.bills)])
  }

  /** On the wire the two device enables of the reply go out at once, and
      the tier enable follows them 50 ms later. */
  lemma TierEnableFollowsDevices(s: State, data: seq<Byte>)
    requires |data| == 24
    ensures var sent := TubeStatusReply(s, data).sent;
      && |sent| == 4 && sent[2..] == EnableDevices
      && sent[0].delay == sent[2].delay == sent[3].delay == 0
      && sent[1].delay == HoldDelayMs > 0
      && sent[1].command == DetermineBillAcceptance(s.target).sent[1].command
  {
  }

  /** All listeners waiting on the coin line answer the same chunk, in the
      order they were registered. */
  function TubeStatusReplies(s: State, data: seq<Byte>, n: nat): (r: Step)
    requires |data| == 24
    ensures r.state == s
    ensures |r.events| == n && forall k :: 0 <= k < n ==> r.events[k].TubeStatusEvent?
    ensures |r.sent| == 4 * n
    ensures forall k :: 0 <= k < n ==> r.events[k] == TubeStatusReply(s, data).events[0]
    ensures forall i :: 0 <= i < 4 * n ==> r.sent[i] == TubeStatusReply(s, data).sent[i % 4]
    ensures NoReject(r.sent)
    decreases n
  {
    if n == 0 then Step(s, [], [])
    else
      var one := TubeStatusReply(s, data);
      var more := TubeStatusReplies(s, data, n - 1);
      BlockPrepend(one.sent, more.sent, n - 1);
      CopyPrepend(one.events, more.events, n - 1);
      NoRejectAppend(one.sent, more.sent);
      Step(s, one.sent + more.sent, one.events + more.events)
  }

  /** One more block of four in front of a repetition of that block. */
  lemma BlockPrepend<T>(block: seq<T>, rest: seq<T>, m: nat)
    requires |block| == 4 && |rest| == 4 * m
    requires forall i :: 0 <= i < 4 * m ==> rest[i] == block[i % 4]
    ensures forall i :: 0 <= i < 4 * (m + 1) ==> (block + rest)[i] == block[i % 4]
  {
    forall i | 0 <= i < 4 * (m + 1)
      ensures (block + rest)[i] == block[i % 4]
    {
      if i >= 4 {
        assert (block + rest)[i] == rest[i - 4];
        assert (i - 4) % 4 == i % 4;
      }
    }
  }

  /** One more copy of the single element in front of copies of it. */
  lemma CopyPrepend<T>(one: seq<T>, rest: seq<T>, m: nat)
    requires |one| == 1 && |rest| == m
    requires forall k :: 0 <= k < m ==> rest[k] == one[0]
    ensures forall k :: 0 <= k < m + 1 ==> (one + rest)[k] == one[0]
  {
    forall k | 0 <= k < m + 1
      ensures (one + rest)[k] == one[0]
    {
      if k >= 1 {
        assert (one + rest)[k] == rest[k - 1];
      }
    }
  }

  // ---------------------------------------------------------------------
  // Coin line

  /** The value of a list of frames. */
  function CoinSum(frames: seq<string>): nat {
    if frames == [] then 0 else EvaluateCoin(frames[0]) + CoinSum(frames[1..])
  }

  /** The body of the framing loop for one frame: a coin of positive value
      is added and the payment evaluated; anything else changes nothing. */
  function CoinStep(s: State, frame: string): (r: Step)
    ensures r.state == s.(total := r.state.total)
    ensures r.events == [] ==> r.state.total == s.total + EvaluateCoin(frame)
    ensures |r.events| <= 1 && forall k :: 0 <= k < |r.events| ==> r.events[k].PaymentCompleted?
    ensures EvaluateCoin(frame) == 0 ==> r == Step(s, [], [])
    ensures EvaluateCoin(frame) > 0 ==> (r.events != [] <==> s.total + EvaluateCoin(frame) >= s.target)
    ensures r.events != [] ==> r.state.total == 0
    ensures r.events == [] ==> r.sent == []
    ensures EvaluateCoin(frame) > 0 && s.total + EvaluateCoin(frame) >= s.target ==>
      r.sent == PaymentSends(s.total + EvaluateCoin(frame) - s.target)
    ensures EvaluateCoin(frame) > 0 && s.total + EvaluateCoin(frame) >= s.target ==>
      r.events == [CompletionEvent(s.total + EvaluateCoin(frame) - s.target)]
    ensures NoReject(r.sent)
  {
    var v := EvaluateCoin(frame);
    if v > 0 then Settle(s, s.total + v) else Step(s, [], [])
  }

  /** The framing loop's body over all the frames it extracts, in order.
      Only the total changes; while no payment completes, it grows by the
      frames' value. */
  function ApplyCoins(s: State, frames: seq<string>): (r: Step)
    ensures r.state == s.(total := r.state.total)
    ensures r.events == [] ==> r.state.total == s.total + CoinSum(frames)
    ensures |r.events| <= |frames|
    ensures forall k :: 0 <= k < |r.events| ==> r.events[k].PaymentCompleted?
    ensures s.total + CoinSum(frames) < s.target ==> r.events == []
    ensures s.total < s.target <= s.total + CoinSum(frames) ==> r.events != []
    ensures r.events == [] ==> r.sent == []
    ensures NoReject(r.sent)
    decreases |frames|
  {
    if frames == [] then Step(s, [], [])
    else
      var p := CoinStep(s, frames[0]);
      var rest := ApplyCoins(p.state, frames[1..]);
      Step(rest.state, p.sent + rest.sent, p.events + rest.events)
  }

  /** The framing part of the coin handler: append the chunk's hex text to
      the buffer, handle every frame in it, and cut the buffer back when it
      has grown past 100 characters. */
  function FrameChunk(s: State, data: seq<Byte>): (r: Step)
    ensures |r.state.coinBuffer| <= BufferBound && !HasFrame(r.state.coinBuffer)
    ensures r.state.coinBuffer == BoundBuffer(Frames(s.coinBuffer + HexEncode(data)).rest)
    ensures r.state == s.(total := r.state.total, coinBuffer := r.state.coinBuffer)
    ensures r.events == [] ==> r.state.total == s.total + CoinSum(Frames(s.coinBuffer + HexEncode(data)).frames)
    ensures forall k :: 0 <= k < |r.events| ==> r.events[k].PaymentCompleted?
    ensures s.total + CoinSum(Frames(s.coinBuffer + HexEncode(data)).frames) < s.target ==> r.events == []
    ensures s.total < s.target <= s.total + CoinSum(Frames(s.coinBuffer + HexEncode(data)).frames) ==> r.events != []
    ensures r.events == [] ==> r.sent == []
    ensures NoReject(r.sent)
  {
    var f := Frames(s.coinBuffer + HexEncode(data));
    var coins := ApplyCoins(s, f.frames);
    var kept := BoundBuffer(f.rest);
    SuffixHasNoFrame(kept, f.rest);
    Step(coins.state.(coinBuffer := kept), coins.sent, coins.events)
  }

  /** The `data` handler of the coin line for one 24-byte chunk: the framing
      part, then the pending tube-status listeners answer the same chunk,
      each with the reply of `TubeStatusReply`. */
  function OnCoinData(s: State, data: seq<Byte>): (r: Step)
    requires |data| == 24
    ensures |r.state.coinBuffer| <= BufferBound && !HasFrame(r.state.coinBuffer)
    ensures r.state.coinBuffer == BoundBuffer(Frames(s.coinBuffer + HexEncode(data)).rest)
    ensures r.state.pendingTubeQueries == 0
    ensures r.state == s.(total := r.state.total, coinBuffer := r.state.coinBuffer, pendingTubeQueries := 0)
    ensures |r.events| >= s.pendingTubeQueries
    ensures |r.events| == s.pendingTubeQueries ==>
      r.state.total == s.total + CoinSum(Frames(s.coinBuffer + HexEncode(data)).frames)
    ensures s.total + CoinSum(Frames(s.coinBuffer + HexEncode(data)).frames) < s.target ==>
      |r.events| == s.pendingTubeQueries
    ensures s.total < s.target <= s.total + CoinSum(Frames(s.coinBuffer + HexEncode(data)).frames) ==>
      |r.events| > s.pendingTubeQueries && r.events[0].PaymentCompleted?
    ensures forall k :: |r.events| - s.pendingTubeQueries <= k < |r.events| ==>
      r.events[k] == TubeStatusReply(s, data).events[0]
    ensures |r.sent| >= 4 * s.pendingTubeQueries
    ensures |r.events| == s.pendingTubeQueries ==> |r.sent| == 4 * s.pendingTubeQueries
    ensures forall i :: 0 <= i < 4 * s.pendingTubeQueries ==>
      r.sent[|r.sent| - 4 * s.pendingTubeQueries + i] == TubeStatusReply(s, data).sent[i % 4]
    ensures NoReject(r.sent)
  {
    var coins := FrameChunk(s, data);
    var n := s.pendingTubeQueries;
    var tubes := TubeStatusReplies(coins.state, data, n);
    SameTarget(coins.state, s, data);
    NoRejectAppend(coins.sent, tubes.sent);
    TrailingCopies(coins.events, tubes.events, TubeStatusReply(s, data).events[0], n);
    TrailingBlocks(coins.sent, tubes.sent, TubeStatusReply(s, data).sent, n);
    Step(coins.state.(pendingTubeQueries := 0), coins.sent + tubes.sent, coins.events + tubes.events)
  }

  /** The frame that first brings the total to the target completes the
      payment. With `change` what that frame's total exceeds the target by,
      the first event is the completion for `change`, and the writes start
      with what that completion writes. Frames before it only add to the
      total. */
  lemma {:induction false} FirstCompletion(s: State, frames: seq<string>, i: nat, change: int)
    requires i < |frames|
    requires s.total + CoinSum(frames[..i]) < s.target <= s.total + CoinSum(frames[..i + 1])
    requires change == s.total + CoinSum(frames[..i + 1]) - s.target
    ensures var r := ApplyCoins(s, frames);
      && r.events != [] && r.events[0] == CompletionEvent(change)
      && StartsWith(r.sent, PaymentSends(change))
    decreases i
  {
    var s1 := s.(total := s.total + EvaluateCoin(frames[0]));
    SplitFirstCoin(s, frames, i, change);
    if i == 0 {
      CompletingFrame(s, frames, change);
    } else {
      FirstCompletion(s1, frames[1..], i - 1, change);
      CompletesLater(s, frames, PaymentSends(change), CompletionEvent(change));
    }
  }

  /** The sums of FirstCompletion seen from the first frame: either it is the
      completing frame, or it stays below the target and the completing frame
      is i - 1 places into the rest. */
  lemma SplitFirstCoin(s: State, frames: seq<string>, i: nat, change: int)
    requires i < |frames|
    requires s.total + CoinSum(frames[..i]) < s.target <= s.total + CoinSum(frames[..i + 1])
    requires change == s.total + CoinSum(frames[..i + 1]) - s.target
    ensures i == 0 ==> s.total < s.target <= s.total + EvaluateCoin(frames[0])
    ensures i == 0 ==> change == s.total + EvaluateCoin(frames[0]) - s.target
    ensures i > 0 ==> s.total + EvaluateCoin(frames[0]) < s.target
    ensures var s1 := s.(total := s.total + EvaluateCoin(frames[0]));
      i > 0 ==>
      && s1.total + CoinSum(frames[1..][..i - 1]) < s1.target <= s1.total + CoinSum(frames[1..][..i])
      && change == s1.total + CoinSum(frames[1..][..i]) - s1.target
  {
    CoinSumPrefix(frames, i + 1);
    if i == 0 {
      assert frames[..0] == [] && frames[1..][..0] == [];
    } else {
      CoinSumPrefix(frames, i);
    }
  }

  /** What the frames after a first frame that stays below the target write
      and emit first, all the frames write and emit first. */
  lemma CompletesLater(s: State, frames: seq<string>, sends: seq<Send>, event: Event)
    requires |frames| > 0 && s.total + EvaluateCoin(frames[0]) < s.target
    requires var r := ApplyCoins(s.(total := s.total + EvaluateCoin(frames[0])), frames[1..]);
      r.events != [] && r.events[0] == event && StartsWith(r.sent, sends)
    ensures var r := ApplyCoins(s, frames);
      r.events != [] && r.events[0] == event && StartsWith(r.sent, sends)
  {
    CoinBelowTarget(s, frames);
  }

  /** The value of the first n frames is the first frame's value plus that of
      the n - 1 after it. */
  lemma CoinSumPrefix(frames: seq<string>, n: nat)
    requires 0 < n <= |frames|
    ensures CoinSum(frames[..n]) == EvaluateCoin(frames[0]) + CoinSum(frames[1..][..n - 1])
  {
    assert frames[..n][0] == frames[0] && frames[..n][1..] == frames[1..][..n - 1];
  }

  /** Equal change, equal completion. */
  lemma SameChange(x: int, y: int)
    requires x == y
    ensures PaymentSends(x) == PaymentSends(y) && CompletionEvent(x) == CompletionEvent(y)
  {
  }

  /** The first frame's step, then the rest. */
  lemma ApplyCoinsFirst(s: State, frames: seq<string>)
    requires |frames| > 0
    ensures var p := CoinStep(s, frames[0]);
      var rest := ApplyCoins(p.state, frames[1..]);
      && ApplyCoins(s, frames).sent == p.sent + rest.sent
      && ApplyCoins(s, frames).events == p.events + rest.events
  {
  }

  /** A first frame that brings the total from below the target up to it
      completes the payment first thing. */
  lemma CompletingFrame(s: State, frames: seq<string>, change: int)
    requires |frames| > 0 && s.total < s.target <= s.total + EvaluateCoin(frames[0])
    requires change == s.total + EvaluateCoin(frames[0]) - s.target
    ensures var r := ApplyCoins(s, frames);
      && r.events != [] && r.events[0] == CompletionEvent(change)
      && StartsWith(r.sent, PaymentSends(change))
  {
    var p := CoinStep(s, frames[0]);
    var rest := ApplyCoins(p.state, frames[1..]);
    ApplyCoinsFirst(s, frames);
    CoinCompletes(s, frames[0], change);
    CompletionFirst(p, rest, PaymentSends(change), CompletionEvent(change));
  }

  /** A step that writes `sends` and emits just `event`, followed by any
      other: the writes start with `sends` and the first event is `event`. */
  lemma CompletionFirst(p: Step, rest: Step, sends: seq<Send>, event: Event)
    requires p.sent == sends && p.events == [event]
    ensures (p.events + rest.events)[0] == event
    ensures StartsWith(p.sent + rest.sent, sends)
  {
    StartsWithAppend(p.sent, rest.sent, sends);
  }

  /** A coin that brings the total from below the target up to it completes
      the payment with `change` the amount it goes over by. */
  lemma CoinCompletes(s: State, frame: string, change: int)
    requires s.total < s.target <= s.total + EvaluateCoin(frame)
    requires change == s.total + EvaluateCoin(frame) - s.target
    ensures CoinStep(s, frame) == Step(s.(total := 0), PaymentSends(change), [CompletionEvent(change)])
  {
    SameChange(s.total + EvaluateCoin(frame) - s.target, change);
  }

  /** The same for the framing part of the coin handler: the first frame of
      buffer + chunk that brings the total to the target yields the first
      event and the first writes. */
  lemma ChunkCompletes(s: State, data: seq<Byte>, i: nat)
    requires var frames := Frames(s.coinBuffer + HexEncode(data)).frames;
      i < |frames| && s.total + CoinSum(frames[..i]) < s.target <= s.total + CoinSum(frames[..i + 1])
    ensures var frames := Frames(s.coinBuffer + HexEncode(data)).frames;
      var change := s.total + CoinSum(frames[..i + 1]) - s.target;
      var r := FrameChunk(s, data);
      && r.events != [] && r.events[0] == CompletionEvent(change)
      && StartsWith(r.sent, PaymentSends(change))
  {
    var frames := Frames(s.coinBuffer + HexEncode(data)).frames;
    FirstCompletion(s, frames, i, s.total + CoinSum(frames[..i + 1]) - s.target);
    FrameChunkCoins(s, data);
  }

  /** The same for the whole coin handler: the listeners' replies come after
      the framing part's output. */
  lemma CoinDataCompletes(s: State, data: seq<Byte>, i: nat)
    requires |data| == 24
    requires var frames := Frames(s.coinBuffer + HexEncode(data)).frames;
      i < |frames| && s.total + CoinSum(frames[..i]) < s.target <= s.total + CoinSum(frames[..i + 1])
    ensures var frames := Frames(s.coinBuffer + HexEncode(data)).frames;
      var change := s.total + CoinSum(frames[..i + 1]) - s.target;
      var r := OnCoinData(s, data);
      && r.events != [] && r.events[0] == CompletionEvent(change)
      && StartsWith(r.sent, PaymentSends(change))
  {
    var frames := Frames(s.coinBuffer + HexEncode(data)).frames;
    var change := s.total + CoinSum(frames[..i + 1]) - s.target;
    var coins := FrameChunk(s, data);
    var tubes := TubeStatusReplies(coins.state, data, s.pendingTubeQueries);
    ChunkCompletes(s, data, i);
    OnCoinDataParts(s, data);
    StartsWithAppend(coins.sent, tubes.sent, PaymentSends(change));
  }

  /** The coin handler's writes and events: the framing part's, then the
      listeners'. */
  lemma OnCoinDataParts(s: State, data: seq<Byte>)
    requires |data| == 24
    ensures var coins := FrameChunk(s, data);
      var tubes := TubeStatusReplies(coins.state, data, s.pendingTubeQueries);
      && OnCoinData(s, data).sent == coins.sent + tubes.sent
      && OnCoinData(s, data).events == coins.events + tubes.events
  {
  }

  /** The framing part writes and emits what the frames' steps do. */
  lemma FrameChunkCoins(s: State, data: seq<Byte>)
    ensures var coins := ApplyCoins(s, Frames(s.coinBuffer + HexEncode(data)).frames);
      FrameChunk(s, data).sent == coins.sent && FrameChunk(s, data).events == coins.events
  {
  }

  /** The tube-status reply depends on the state only through the target. */
  lemma SameTarget(s1: State, s: State, data: seq<Byte>)
    requires |data| == 24 && s1.target == s.target
    ensures TubeStatusReply(s1, data).sent == TubeStatusReply(s, data).sent
    ensures TubeStatusReply(s1, data).events == TubeStatusReply(s, data).events
  {
  }

  /** n copies of x behind any prefix are the last n elements. */
  lemma TrailingCopies<T>(a: seq<T>, b: seq<T>, x: T, n: nat)
    requires |b| == n && forall k :: 0 <= k < n ==> b[k] == x
    ensures forall k :: |a + b| - n <= k < |a + b| ==> (a + b)[k] == x
  {
    forall k | |a + b| - n <= k < |a + b|
      ensures (a + b)[k] == x
    {
      assert (a + b)[k] == b[k - |a|];
    }
  }

  /** n repetitions of a four-element block behind any prefix are the last 4n elements. */
  lemma TrailingBlocks<T>(a: seq<T>, b: seq<T>, block: seq<T>, n: nat)
    requires |block| == 4 && |b| == 4 * n && forall i :: 0 <= i < 4 * n ==> b[i] == block[i % 4]
    ensures |a + b| >= 4 * n
    ensures forall i :: 0 <= i < 4 * n ==> (a + b)[|a + b| - 4 * n + i] == block[i % 4]
  {
    forall i | 0 <= i < 4 * n
      ensures (a + b)[|a + b| - 4 * n + i] == block[i % 4]
    {
      assert (a + b)[|a| + i] == b[i];
    }
  }

  // ---------------------------------------------------------------------
  // Bill line

  /** The chunk is a repeat of the previous one inside the duplicate window. */
  predicate IsDuplicate(s: State, chunk: seq<Byte>, now: int) {
    chunk == s.lastCommand && now - s.lastCommandTime < DuplicateWindowMs
  }

  /** The conditions under which the bill handler stacks a bill: not a
      duplicate, outside the settle window, the last seven bytes not an
      escrow report, starting with 0x02, and decoding to a bill. */
  predicate Stacks(s: State, chunk: seq<Byte>, now: int)
    requires |chunk| == 8
  {
    && !IsDuplicate(s, chunk, now)
    && now - s.lastStackedTime >= SettleWindowMs
    && chunk[1..] !in EscrowFrames
    && chunk[1] == 0x02
    && EvaluateBill(chunk[1..]) > 0
  }

  /** The `data` handler of the bill line for one 8-byte chunk read at time
      `now`. The rendered chunk always has eight segments, so the last seven
      are bytes 1..7. */
  function OnBillChunk(s: State, chunk: seq<Byte>, now: int): (r: Step)
    requires |chunk| == 8
    ensures IsDuplicate(s, chunk, now) ==> r == Step(s, [], [])
    ensures !IsDuplicate(s, chunk, now) ==> r.state.lastCommand == chunk && r.state.lastCommandTime == now
    ensures r.state.target == s.target && r.state.coinBuffer == s.coinBuffer
    ensures r.state.pendingTubeQueries == s.pendingTubeQueries
    ensures !Stacks(s, chunk, now) ==>
      && r.sent == [] && r.events == []
      && r.state.total == s.total && r.state.lastStackedTime == s.lastStackedTime
    ensures Stacks(s, chunk, now) ==>
      && |r.sent| > 0 && r.sent[0] == Send(BillPort, AcceptBill, 0)
      && r.state.lastStackedTime == now
      && var paid := s.total + 100 * EvaluateBill(chunk[1..]);
         r.state.total == (if paid >= s.target then 0 else paid)
    ensures Stacks(s, chunk, now) ==>
      var paid := s.total + 100 * EvaluateBill(chunk[1..]);
      && (r.events != [] <==> paid >= s.target)
      && r.sent == [Send(BillPort, AcceptBill, 0)] + (if paid >= s.target then PaymentSends(paid - s.target) else [])
    ensures Stacks(s, chunk, now) && s.total + 100 * EvaluateBill(chunk[1..]) >= s.target ==>
      r.events == [CompletionEvent(s.total + 100 * EvaluateBill(chunk[1..]) - s.target)]
    ensures NoReject(r.sent)
  {
    if IsDuplicate(s, chunk, now) then Step(s, [], [])
    else
      var s1 := s.(lastCommand := chunk, lastCommandTime := now);
      if now - s.lastStackedTime < SettleWindowMs then Step(s1, [], [])
      else
        var last := chunk[1..];
        if last in EscrowFrames then Step(s1, [], [])
        else if last[0] != 0x02 then Step(s1, [], [])
        else
          var amount := EvaluateBill(last);
          if amount == 0 then Step(s1, [], [])
          else
            var tier := SelectTier(100 * amount);
            BillWithinOwnTier(amount);
            if amount in tier.bills then StackBill(s1, amount, now)
            else Step(s1, RejectReply, [])
  }

  /** The stacking branch of the bill handler: accept the bill, note the
      time and add its value, then evaluate the payment. */
  function StackBill(s: State, amount: nat, now: int): (r: Step)
    ensures |r.sent| > 0 && r.sent[0] == Send(BillPort, AcceptBill, 0)
    ensures r.state.lastStackedTime == now
    ensures var paid := s.total + 100 * amount;
      && r.state == s.(lastStackedTime := now, total := if paid >= s.target then 0 else paid)
      && (r.events != [] <==> paid >= s.target)
    ensures s.total + 100 * amount >= s.target ==>
      r.sent == [Send(BillPort, AcceptBill, 0)] + PaymentSends(s.total + 100 * amount - s.target)
    ensures s.total + 100 * amount < s.target ==> r.sent == [Send(BillPort, AcceptBill, 0)]
    ensures s.total + 100 * amount >= s.target ==> r.events == [CompletionEvent(s.total + 100 * amount - s.target)]
    ensures NoReject(r.sent)
  {
    var p := Settle(s.(lastStackedTime := now), s.total + 100 * amount);
    NoRejectAppend([Send(BillPort, AcceptBill, 0)], p.sent);
    Step(p.state, [Send(BillPort, AcceptBill, 0)] + p.sent, p.events)
  }

  /** Two logs without a reject join into one without a reject. */
  lemma NoRejectAppend(a: seq<Send>, b: seq<Send>)
    requires NoReject(a) && NoReject(b)
    ensures NoReject(a + b)
  {
    forall k | 0 <= k < |a + b|
      ensures (a + b)[k].command != RejectBill
    {
      if k < |a| {
        assert (a + b)[k] == a[k];
      } else {
        assert (a + b)[k] == b[k - |a|];
      }
    }
  }

  /** A bill held in escrow never changes the total. */
  lemma EscrowNeverCounted(s: State, chunk: seq<Byte>, now: int)
    requires |chunk| == 8 && chunk[1..] in EscrowFrames
    ensures OnBillChunk(s, chunk, now).state.total == s.total
    ensures OnBillChunk(s, chunk, now).sent == []
  {
  }

  /** The same chunk fed twice within 200 ms is stacked at most once: when
      the first is handled, the second is dropped. */
  lemma DuplicateCountedOnce(s: State, chunk: seq<Byte>, t1: int, t2: int)
    requires |chunk| == 8 && t1 <= t2 < t1 + DuplicateWindowMs
    ensures !(Stacks(s, chunk, t1) && Stacks(OnBillChunk(s, chunk, t1).state, chunk, t2))
    ensures !IsDuplicate(s, chunk, t1) ==>
      var r1 := OnBillChunk(s, chunk, t1);
      OnBillChunk(r1.state, chunk, t2) == Step(r1.state, [], [])
  {
  }

  // ---------------------------------------------------------------------
  // Runs

  /** One thing that can happen to the controller. */
  datatype Input =
    | Request(amount: Option<int>)
    | BillData(chunk: seq<Byte>, now: int)
    | CoinData(data: seq<Byte>)

  /** The chunk sizes the two byte-length parsers deliver. */
  predicate WellSized(i: Input) {
    && (i.BillData? ==> |i.chunk| == 8)
    && (i.CoinData? ==> |i.data| == 24)
  }

  function Apply(s: State, i: Input): Step
    requires WellSized(i)
  {
    match i
    case Request(amount) => RequestAmount(s, amount)
    case BillData(chunk, now) => OnBillChunk(s, chunk, now)
    case CoinData(data) => OnCoinData(s, data)
  }

  /** Runs the inputs in order, collecting the writes and the events. */
  function Run(s: State, inputs: seq<Input>): Step
    requires forall k :: 0 <= k < |inputs| ==> WellSized(inputs[k])
    decreases |inputs|
  {
    if inputs == [] then Step(s, [], [])
    else
      var first := Apply(s, inputs[0]);
      var rest := Run(first.state, inputs[1..]);
      Step(rest.state, first.sent + rest.sent, first.events + rest.events)
  }

  /** The clock readings at which bills were stacked during a run. */
  function StackTimes(s: State, inputs: seq<Input>): seq<int>
    requires forall k :: 0 <= k < |inputs| ==> WellSized(inputs[k])
    decreases |inputs|
  {
    if inputs == [] then []
    else
      var i := inputs[0];
      assert WellSized(i);
      var here := if i.BillData? && Stacks(s, i.chunk, i.now) then [i.now] else [];
      here + StackTimes(Apply(s, i).state, inputs[1..])
  }

  /** Only a stacked bill moves `lastApiladoTime`, and it moves it to the
      clock reading of that chunk. */
  lemma ApplyStackTime(s: State, i: Input)
    requires WellSized(i)
    ensures i.BillData? && Stacks(s, i.chunk, i.now) ==> Apply(s, i).state.lastStackedTime == i.now
    ensures !(i.BillData? && Stacks(s, i.chunk, i.now)) ==> Apply(s, i).state.lastStackedTime == s.lastStackedTime
  {
  }

  /** Consecutive times, and the first one after `from`, lie at least
      `gap` apart. */
  predicate Spaced(ts: seq<int>, from: int, gap: int) {
    && (|ts| > 0 ==> ts[0] - from >= gap)
    && (forall k :: 0 < k < |ts| ==> ts[k] - ts[k - 1] >= gap)
  }

  lemma SpacedPrepend(x: int, ts: seq<int>, from: int, gap: int)
    requires Spaced(ts, x, gap) && x - from >= gap
    ensures Spaced([x] + ts, from, gap)
  {
    var all := [x] + ts;
    forall k | 0 < k < |all|
      ensures all[k] - all[k - 1] >= gap
    {
      assert all[k] == ts[k - 1];
      if k > 1 {
        assert all[k - 1] == ts[k - 2];
      }
    }
  }

  /** Over any run, stacked bills are at least 1500 ms apart, and the first
      one is at least 1500 ms after the previous stacking. */
  lemma {:induction false} StackedBillsSpaced(s: State, inputs: seq<Input>)
    requires forall k :: 0 <= k < |inputs| ==> WellSized(inputs[k])
    ensures Spaced(StackTimes(s, inputs), s.lastStackedTime, SettleWindowMs)
    decreases |inputs|
  {
    if inputs != [] {
      var i := inputs[0];
      var next := Apply(s, i).state;
      ApplyStackTime(s, i);
      StackedBillsSpaced(next, inputs[1..]);
      var tail := StackTimes(next, inputs[1..]);
      if i.BillData? && Stacks(s, i.chunk, i.now) {
        assert StackTimes(s, inputs) == [i.now] + tail;
        SpacedPrepend(i.now, tail, s.lastStackedTime, SettleWindowMs);
      } else {
        assert StackTimes(s, inputs) == [] + tail;
        assert [] + tail == tail;
      }
    }
  }

  /** No run ever writes RejectBill. */
  lemma {:induction false} RunNeverRejects(s: State, inputs: seq<Input>)
    requires forall k :: 0 <= k < |inputs| ==> WellSized(inputs[k])
    ensures NoReject(Run(s, inputs).sent)
    decreases |inputs|
  {
    if inputs != [] {
      var i := inputs[0];
      RunNeverRejects(Apply(s, i).state, inputs[1..]);
      var first := Apply(s, i).sent;
      var rest := Run(Apply(s, i).state, inputs[1..]).sent;
      assert Run(s, inputs).sent == first + rest;
      NoRejectAppend(first, rest);
    }
  }

  // ---------------------------------------------------------------------
  // Sessions

  /** The change for 2.00 is one 2.00 dispense, printed "2.00". */
  lemma ChangeOfTwo()
    ensures ChangeQueue(200) == [Cambio2Bs]
    ensures Fixed2(200) == "2.00"
  {
    ChangeForTwo();
    Fixed2OfTwo();
  }

  /** The state right after `requestAmount(5.00)` at start-up. */
  const Session := State(500, 0, [], 0, 0, "", 1)

  lemma SessionStart()
    ensures RequestAmount(Initial, Some(500)).state == Session
  {
  }

  /** One frame handled, then the rest. */
  lemma ApplyCoinsCons(s: State, frame: string, rest: seq<string>)
    ensures var p := CoinStep(s, frame);
            var r := ApplyCoins(p.state, rest);
            ApplyCoins(s, [frame] + rest) == Step(r.state, p.sent + r.sent, p.events + r.events)
  {
    var frames := [frame] + rest;
    assert frames != [] && frames[0] == frame && frames[1..] == rest;
  }

  /** A session for 5.00 paid exactly with one coin of 5.00: one completion
      event, no change, total back at zero. */
  lemma ExactPayment(coin: string)
    requires EvaluateCoin(coin) == 500
    ensures var r := ApplyCoins(Session, [coin]);
            r.events == [PaymentCompleted("Pago completado", "0.00", None)] && r.state.total == 0
  {
    Fixed2OfZero();
    ApplyCoinsCons(Session, coin, []);
    assert [coin] + [] == [coin];
  }

  /** The 5.00 coin on top of 2.00 completes the 5.00 session with change
      "2.00", paid out as one 2.00 dispense. */
  lemma SecondCoinCompletes(five: string)
    requires EvaluateCoin(five) == 500
    ensures CoinStep(Session.(total := 200), five).events == [PaymentCompleted("Pago completado", "0.00", Some("2.00"))]
    ensures CoinStep(Session.(total := 200), five).state == Session
    ensures Dispensed(CoinStep(Session.(total := 200), five).sent) == [Cambio2Bs]
  {
    Fixed2OfZero();
    ChangeOfTwo();
    assert CoinStep(Session.(total := 200), five) == EvaluatePayment(Session.(total := 700));
  }

  /** A coin that leaves the total below the target only adds to it. */
  lemma FirstCoinWaits(two: string, five: string)
    requires EvaluateCoin(two) == 200
    ensures ApplyCoins(Session, [two, five]) == ApplyCoins(Session.(total := 200), [five])
  {
    var frames := [two, five];
    assert frames[0] == two && frames[1..] == [five];
    CoinBelowTarget(Session, frames);
  }

  /** A frame that leaves the total below the target is added (a frame worth
      nothing adds nothing) and nothing else happens. */
  lemma CoinBelowTarget(s: State, frames: seq<string>)
    requires |frames| > 0 && s.total + EvaluateCoin(frames[0]) < s.target
    ensures ApplyCoins(s, frames) == ApplyCoins(s.(total := s.total + EvaluateCoin(frames[0])), frames[1..])
  {
    var p := CoinStep(s, frames[0]);
    assert p == Step(s.(total := s.total + EvaluateCoin(frames[0])), [], []);
    var r := ApplyCoins(p.state, frames[1..]);
    assert [] + r.sent == r.sent && [] + r.events == r.events;
  }

  lemma LastCoin(s: State, five: string)
    ensures ApplyCoins(s, [five]) == CoinStep(s, five)
  {
    var p := CoinStep(s, five);
    assert [five][1..] == [];
    assert p.sent + [] == p.sent && p.events + [] == p.events;
  }

  /** A session for 5.00 paid with a 2.00 coin and then a 5.00 coin: one
      completion event with change "2.00", paid out as one 2.00 dispense. */
  lemma OverPayment(two: string, five: string)
    requires EvaluateCoin(two) == 200 && EvaluateCoin(five) == 500
    ensures var r := ApplyCoins(Session, [two, five]);
            && r.events == [PaymentCompleted("Pago completado", "0.00", Some("2.00"))]
            && Dispensed(r.sent) == [Cambio2Bs]
  {
    FirstCoinWaits(two, five);
    LastCoin(Session.(total := 200), five);
    SecondCoinCompletes(five);
  }
}

=== FILE: text.dfy ===
/** Character-level helpers with the meaning of the JavaScript operations the
    controller applies to device data: upper-case hex encoding of received
    bytes, `indexOf`, `includes`, `slice`, and `toFixed(2)` of a cent amount. */
module Text {
  import opened Commands

  /** A value that may be absent: JavaScript's `null`, `NaN` or missing key. */
  datatype Option<T> = None | Some(value: T)

  predicate IsHexDigit(c: char) {
    '0' <= c <= '9' || 'A' <= c <= 'F'
  }

  /** What `buffer.toString('hex').toUpperCase()` produces: upper-case hex digits. */
  predicate IsHexText(s: string) {
    forall i :: 0 <= i < |s| ==> IsHexDigit(s[i])
  }

  function HexChar(d: nat): (c: char)
    requires d < 16
    ensures IsHexDigit(c)
  {
    if d < 10 then ('0' as int + d) as char else ('A' as int + d - 10) as char
  }

  function HexValue(c: char): (d: nat)
    requires IsHexDigit(c)
    ensures d < 16 && HexChar(d) == c
  {
    if c <= '9' then c as int - '0' as int else c as int - 'A' as int + 10
  }

  /** `parseInt(pair, 16)` of a two-digit hex pair. */
  function HexByte(hi: char, lo: char): Byte
    requires IsHexDigit(hi) && IsHexDigit(lo)
  {
    16 * HexValue(hi) + HexValue(lo)
  }

  lemma HexCharValue(d: nat)
    requires d < 16
    ensures HexValue(HexChar(d)) == d
  {
  }

  /** The two upper-case digits of one byte, reading back as the byte. */
  function HexPair(b: Byte): (p: string)
    ensures |p| == 2 && IsHexDigit(p[0]) && IsHexDigit(p[1])
    ensures HexByte(p[0], p[1]) == b
  {
    HexCharValue(b / 16);
    HexCharValue(b % 16);
    [HexChar(b / 16), HexChar(b % 16)]
  }

  /** `buffer.toString('hex').toUpperCase()`: two upper-case digits per byte. */
  function HexEncode(bytes: seq<Byte>): (s: string)
    ensures |s| == 2 * |bytes|
    ensures IsHexText(s)
  {
    if bytes == [] then ""
    else
      var head, rest := HexPair(bytes[0]), HexEncode(bytes[1..]);
      assert forall i :: 2 <= i < 2 + |rest| ==> (head + rest)[i] == rest[i - 2];
      head + rest
  }

  /** Byte k of the input is the pair of characters at 2k and 2k + 1. */
  lemma HexEncodePair(bytes: seq<Byte>, k: nat)
    requires k < |bytes|
    ensures HexEncode(bytes)[2 * k..2 * k + 2] == HexPair(bytes[k])
    ensures HexByte(HexEncode(bytes)[2 * k], HexEncode(bytes)[2 * k + 1]) == bytes[k]
  {
    HexEncodeSlice(bytes, k);
    var s := HexEncode(bytes);
    assert s[2 * k] == s[2 * k..2 * k + 2][0] && s[2 * k + 1] == s[2 * k..2 * k + 2][1];
  }

  lemma {:induction false} HexEncodeSlice(bytes: seq<Byte>, k: nat)
    requires k < |bytes|
    ensures HexEncode(bytes)[2 * k..2 * k + 2] == HexPair(bytes[k])
    decreases k
  {
    var head, rest := HexPair(bytes[0]), HexEncode(bytes[1..]);
    assert HexEncode(bytes) == head + rest;
    if k == 0 {
      assert (head + rest)[..2] == head;
    } else {
      HexEncodeSlice(bytes[1..], k - 1);
      assert bytes[1..][k - 1] == bytes[k];
      SliceAfterPrefix(head, rest, 2 * k, 2 * k + 2);
    }
  }

  /** A slice that lies past a prefix is a slice of what follows it. */
  lemma SliceAfterPrefix<T>(a: seq<T>, b: seq<T>, i: nat, j: nat)
    requires |a| <= i <= j <= |a| + |b|
    ensures (a + b)[i..j] == b[i - |a|..j - |a|]
  {
  }

  /** Two hex pairs name the same byte only if they are the same characters. */
  lemma HexByteInjective(a: char, b: char, c: char, d: char)
    requires IsHexDigit(a) && IsHexDigit(b) && IsHexDigit(c) && IsHexDigit(d)
    requires HexByte(a, b) == HexByte(c, d)
    ensures a == c && b == d
  {
    assert HexChar(HexValue(a)) == a && HexChar(HexValue(c)) == c;
  }

  /** Equal hex texts come from equal bytes, so comparing the rendered text
      of two chunks is comparing the chunks. */
  lemma HexEncodeInjective(a: seq<Byte>, b: seq<Byte>)
    requires HexEncode(a) == HexEncode(b)
    ensures a == b
  {
    assert |a| == |b|;
    forall k | 0 <= k < |a| ensures a[k] == b[k] {
      HexEncodePair(a, k);
      HexEncodePair(b, k);
    }
  }

  /** `s` occurs in `text` at position i. */
  predicate OccursAt(text: string, s: string, i: int) {
    0 <= i && i + |s| <= |text| && text[i..i + |s|] == s
  }

  function Max0(i: int): nat {
    if i < 0 then 0 else i
  }

  /** `text.indexOf(s, from)` for a non-empty s: the first occurrence at or
      after `from` (a negative `from` counts as 0), or -1 when there is none. */
  function IndexOf(text: string, s: string, from: int): (r: int)
    requires |s| > 0
    ensures r == -1 || (Max0(from) <= r && OccursAt(text, s, r))
    ensures r == -1 ==> forall i :: Max0(from) <= i ==> !OccursAt(text, s, i)
    ensures r != -1 ==> forall i :: Max0(from) <= i < r ==> !OccursAt(text, s, i)
    decreases |text| - Max0(from)
  {
    var f := Max0(from);
    if f + |s| > |text| then -1
    else if text[f..f + |s|] == s then f
    else IndexOf(text, s, f + 1)
  }

  /** The first occurrence at or after `from` is at i. */
  lemma IndexOfIs(text: string, s: string, from: nat, i: nat)
    requires |s| > 0 && from <= i && OccursAt(text, s, i)
    requires forall j :: from <= j < i ==> !OccursAt(text, s, j)
    ensures IndexOf(text, s, from) == i
  {
    var r := IndexOf(text, s, from);
    assert r != -1;
    assert OccursAt(text, s, r);
  }

  /** `text.includes(s)`. */
  predicate Includes(text: string, s: string)
    requires |s| > 0
  {
    IndexOf(text, s, 0) != -1
  }

  lemma IncludesMeansOccurs(text: string, s: string)
    requires |s| > 0
    ensures Includes(text, s) <==> exists i :: OccursAt(text, s, i)
  {
    if !Includes(text, s) {
      forall i ensures !OccursAt(text, s, i) {
        assert Max0(0) <= i || !OccursAt(text, s, i);
      }
    }
  }

  /** `text.slice(a, b)` for 0 <= a: both ends clamped to the length, empty
      when b falls before a. */
  function Slice(text: string, a: nat, b: nat): (r: string)
    ensures |r| <= |text|
    ensures a + |r| <= |text| || r == []
    ensures b <= |text| && a <= b ==> r == text[a..b]
    ensures |text| <= a ==> r == []
    ensures a < |text| < b ==> r == text[a..]
    ensures b <= a ==> r == []
  {
    var lo := if a < |text| then a else |text|;
    var hi := if b < |text| then b else |text|;
    if hi <= lo then [] else text[lo..hi]
  }

  function DigitChar(d: nat): char
    requires d < 10
  {
    ('0' as int + d) as char
  }

  function DigitValue(c: char): int {
    c as int - '0' as int
  }

  predicate IsDecimalText(s: string) {
    forall i :: 0 <= i < |s| ==> '0' <= s[i] <= '9'
  }

  /** The decimal digits of n, most significant first, as `String(n)` prints an integer. */
  function Decimal(n: nat): (s: string)
    ensures |s| >= 1 && IsDecimalText(s)
    decreases n
  {
    if n < 10 then [DigitChar(n)] else Decimal(n / 10) + [DigitChar(n % 10)]
  }

  /** Reads a string of decimal digits back as a number. */
  function ParseDecimal(s: string): int {
    if s == [] then 0 else ParseDecimal(s[..|s| - 1]) * 10 + DigitValue(s[|s| - 1])
  }

  lemma {:induction false} DecimalRoundTrip(n: nat)
    ensures ParseDecimal(Decimal(n)) == n
    decreases n
  {
    if n >= 10 {
      var s := Decimal(n);
      assert s[..|s| - 1] == Decimal(n / 10);
      DecimalRoundTrip(n / 10);
    }
  }

  /** `(cents / 100).toFixed(2)`: whole units, a point, two digits of cents. */
  function Fixed2(cents: nat): (s: string)
    ensures |s| >= 4 && s[|s| - 3] == '.'
    ensures IsDecimalText(s[..|s| - 3]) && '0' <= s[|s| - 2] <= '9' && '0' <= s[|s| - 1] <= '9'
  {
    var s := Decimal(cents / 100) + "." + [DigitChar(cents % 100 / 10), DigitChar(cents % 10)];
    assert s[..|s| - 3] == Decimal(cents / 100);
    s
  }

  /** Reads a `toFixed(2)` string back as cents. */
  function ParseFixed2(s: string): int
    requires |s| >= 3
  {
    ParseDecimal(s[..|s| - 3]) * 100 + DigitValue(s[|s| - 2]) * 10 + DigitValue(s[|s| - 1])
  }

  /** `toFixed(2)` loses nothing: the printed amount reads back as the cents. */
  lemma Fixed2RoundTrip(cents: nat)
    ensures ParseFixed2(Fixed2(cents)) == cents
  {
    var s := Fixed2(cents);
    var units, tenths, hundredths := cents / 100, cents % 100 / 10, cents % 10;
    assert s[..|s| - 3] == Decimal(units);
    assert s[|s| - 2] == DigitChar(tenths) && s[|s| - 1] == DigitChar(hundredths);
    DecimalRoundTrip(units);
    assert cents == units * 100 + tenths * 10 + hundredths;
  }

  lemma Fixed2OfTwo()
    ensures Fixed2(200) == "2.00"
  {
    assert Decimal(2) == "2";
  }

  lemma Fixed2OfZero()
    ensures Fixed2(0) == "0.00"
  {
  }
}
